=== FILE: README.md ===
# VastSea problem sharing: a Dafny model

VastSea is a Next.js application for sharing coding problems. A signed-in user posts a problem: a
title, a description, code in Java, C, C++ and JavaScript, and tags. Anyone can browse the
problems. A leaderboard ranks users by how many problems they posted. This project models the
application's core logic:

- The Problem document schema: trimming, length validators, defaults, and the author reference.
- The `/api/problems` GET and POST handlers: the filter document, newest-first listing, and the
  guard order of POST.
- The user-problems handler.
- The leaderboard handler: group counts, the join onto users, and the in-place descending sort.
- The signup and update-profile handlers. Both are methods on a user store whose invariant is
  that no two accounts share an email.
- The shared API error handler.
- Credentials `authorize` and the `jwt` and `session` callbacks.
- The request middleware and its matcher.
- The client fetch helpers: the HTML sniff and the bounded retry loop.
- The client pages: the add-problem form and its tag editor, the browse filter, the home page,
  the dashboard feed, the leaderboard table, the sign-in, sign-up and profile forms, the problem
  card, and the code editor's Tab key.

The database, the password hash, the email validator, date formatting, the clock and the network
are not modelled as code. They are parameters instead:

- `Db` says whether connecting or querying fails.
- `matches` and `compare` stand for `bcrypt.compare`.
- `isEmail` stands for zod's email check.
- `format` and `iso` stand for date formatting.
- `now` stands for `Date.now`.
- `outcome(k)` is the k-th fetch call's result.

Times are integers (milliseconds). Strings are `seq<char>`. Case mapping is ASCII only.
`lib/db/models/User.ts` is not part of this model. A user is a record with an id, name, email,
stored password and optional creation time.

Newest-first orders are one stable descending insertion sort (`Seqs.SortDesc`). The leaderboard
sorts in place on an array (`Seqs.SortInPlace`), which is proved to give the same sequence.

## Model

| member | source | states |
|---|---|---|
| ProblemModel.LangOfKey | lib/db/models/Problem.ts:18-35 | a `codes` key names a language exactly when it is one of java, c, cpp, js, and that language's key is the key |
| ProblemModel.TitleError | lib/db/models/Problem.ts:5-11 | the title passes exactly when it is present and its trimmed length is between 3 and 100 |
| ProblemModel.DescriptionError | lib/db/models/Problem.ts:12-17 | the description passes exactly when it is present and at least 10 characters long after trimming |
| ProblemModel.AuthorError | lib/db/models/Problem.ts:40-44 | the author passes exactly when it is present and casts to an ObjectId (24 hex digits) |
| ProblemModel.Violations | lib/db/models/Problem.ts:4-53 | no violation exactly when the title, description and author validators all pass |
| ProblemModel.Create | lib/db/models/Problem.ts:4-53 | create succeeds exactly when all validators pass; a failure lists the violations; a success is well-formed (trimmed title and description within bounds, ObjectId author), stores the trimmed text, fills codes with '' and tags with [], and sets both times to now unless given |
| ProblemModel.CreateRoundTrip | lib/db/models/Problem.ts:4-53 | re-creating a well-formed document from its own fields gives it back unchanged |
| ProblemModel.CreateDefaults | lib/db/models/Problem.ts:18-52 | with only the required fields, all four codes are '', tags are empty and both times are now |
| ProblemModel.BlankTitleRejected | lib/db/models/Problem.ts:5-9 | an all-white-space title fails as required, whatever its length |
| Populate.View | app/api/problems/route.ts:85-87 | the populated view keeps every field of the document, and has an author (its name and email) exactly when the referenced user exists |
| Populate.Views | app/api/problems/route.ts:85-87 | one view per document, in order |
| ProblemsRoute.BuildQuery | app/api/problems/route.ts:66-82 | the filter document built clause by clause matches exactly the problems that satisfy every non-empty criterion; no criteria give the empty filter |
| ProblemsRoute.FindById | app/api/problems/route.ts:28-31 | a found problem is in the store and has the id; not found means no stored problem has the id |
| ProblemsRoute.ById | app/api/problems/route.ts:16-48 | 500 exactly when the database fails or the id is not an ObjectId; 404 exactly when no problem has the id; otherwise 200 with the populated problem |
| ProblemsRoute.Get | app/api/problems/route.ts:11-97 | a truthy id takes the by-id branch; otherwise a database failure gives 500 "Failed to fetch problems" and success gives 200 with the populated listing |
| ProblemsRoute.ListingSound | app/api/problems/route.ts:69-87 | every listed problem satisfies every given criterion |
| ProblemsRoute.ListingComplete | app/api/problems/route.ts:69-87 | an admitted problem is listed as often as it is stored; a problem not admitted is not listed |
| ProblemsRoute.ListingNewestFirst | app/api/problems/route.ts:86 | the listing is in non-increasing creation time |
| ProblemsRoute.EmptyCriteriaListsAll | app/api/problems/route.ts:51-53 | no query, language or tag lists the whole store, newest first |
| ProblemsRoute.UnknownLanguageListsNothing | app/api/problems/route.ts:76-78 | a language other than java, c, cpp, js lists nothing, with the `codes.<language>` path kept in the filter (strict query filtering off) |
| ProblemsRoute.Post | app/api/problems/route.ts:99-150 | no session gives 401; a missing title or description gives 400; with both present and the connection up, a missing session user id gives 400 "User ID not found in session"; 201 exactly when signed in with a user id, the database is up and the schema accepts; only a 201 appends the new problem, which is `create`'s document for the body: the new id, the trimmed title and description, the body's codes ('' where absent) and tags ([] when absent), authored by the session user and dated now; every other reply leaves the store unchanged |
| ProblemsRoute.SchemaViolationIs500 | app/api/problems/route.ts:115-148 | a title that passes the presence check but is too short after trimming is refused by the schema with 500, not 400, and nothing is stored |
| UserProblemsRoute.Get | app/api/user/problems/route.ts:8-42 | 401 exactly without a session user; 500 exactly when connecting fails; otherwise 200, with [] when the inner query fails, else the user's problems newest first |
| UserProblemsRoute.MineOwnedAndNewestFirst | app/api/user/problems/route.ts:23-25 | every returned problem is authored by the user, and the list is newest first |
| UserProblemsRoute.MineComplete | app/api/user/problems/route.ts:23-25 | each of the user's problems is returned as often as it is stored |
| HomePage.GetProblems | app/page.tsx:8-24 | at most 6 problems; [] when the database fails; otherwise min(6, store size) of them, the populated views of `Latest`, the newest stored problems newest first |
| HomePage.LatestAreNewest | app/page.tsx:13-15 | the six shown are taken from the store, newest first, and none left out is newer than one shown |
| HomePage.Render | app/page.tsx:70-83 | the placeholder shows exactly when there are no problems; otherwise the cards are the problems |
| HomePage.FailureShowsPlaceholder | app/page.tsx:20-23 | a failed fetch or an empty store shows the placeholder |
| ApiErrors.StatusFor | lib/api-error-utils.ts:10-40 | the status is one of 400, 401, 404, 409, 500; anything but an Error object gives 500 |
| ApiErrors.HandleApiError | lib/api-error-utils.ts:10-40 | applying the rules in source order gives the status decided by priority (not found, auth, validation, duplicate key) and the error's own message, replaced only for a duplicate key |
| ApiErrors.LaterRuleReplacesStatusOnly | lib/api-error-utils.ts:17-37 | a duplicate-key error whose message says "not found" answers 404 with the duplicate-entry message |
| ApiErrors.CapitalisedUnauthorizedIs500 | lib/api-error-utils.ts:30-37 | the message tests are case-sensitive: "Unauthorized" gives 500 |
| LeaderboardRoute.Select | app/api/leaderboard/route.ts:20-22 | the selected row keeps id, name, email and createdAt |
| LeaderboardRoute.Distinct | app/api/leaderboard/route.ts:25-32 | the group keys are exactly the author values, each once |
| LeaderboardRoute.Group | app/api/leaderboard/route.ts:25-32 | each group's count is the number of problems with that author, and is positive; every author value has a group |
| LeaderboardRoute.FindCount | app/api/leaderboard/route.ts:37-40 | a found group has the user's id; none found means no group has it |
| LeaderboardRoute.Join | app/api/leaderboard/route.ts:35-49 | one entry per user, in user order |
| LeaderboardRoute.Get | app/api/leaderboard/route.ts:15-65 | a failure is answered by the shared error handler; otherwise 200 with the joined rows sorted in place by count |
| LeaderboardRoute.CountIsAuthored | app/api/leaderboard/route.ts:35-49 | a user's count is the number of problems they authored (0 when none) |
| LeaderboardRoute.OneRowPerUser | app/api/leaderboard/route.ts:35-52 | the leaderboard is a permutation of the joined rows, one per user, each with that user's authored count |
| LeaderboardRoute.RankedAndStable | app/api/leaderboard/route.ts:52 | counts are non-increasing, and users with equal counts keep the order `User.find` returned |
| Seqs.SortInPlace | app/api/leaderboard/route.ts:52 | the in-place sort leaves the array equal to the stable descending sort of its old contents |
| Seqs.SortStable | app/api/leaderboard/route.ts:52 | for every key, the elements carrying it keep their input order |
| Seqs.SortSorted | app/api/leaderboard/route.ts:52 | sorting an already descending sequence changes nothing |
| Seqs.TakeNewest | app/page.tsx:13-15 | the first n of the descending order are sorted, come from the input, and are at least as large as everything left out |
| LeaderboardPage.RankBadge | app/leadborad/page.tsx:57-66 | trophy exactly at index 0, medal at 1, award at 2, and the number index + 1 from index 3 on |
| LeaderboardPage.CountLabel | app/leadborad/page.tsx:132 | "problem" exactly when the count is 1, otherwise "problems" |
| LeaderboardPage.StyleFor | app/leadborad/page.tsx:112-117 | the first three rows are emphasised, highlighted and get the filled badge; no other row is |
| LeaderboardPage.Rows | app/leadborad/page.tsx:106-149 | an empty leaderboard shows the single empty-row message; otherwise one ranked row per entry, in server order |
| LeaderboardPage.TopThreeEmphasised | app/leadborad/page.tsx:112-131 | row i is emphasised exactly when i < 3, and shows a number exactly when i >= 3 |
| LeaderboardPage.ZeroIsPlural | app/leadborad/page.tsx:132 | a zero count reads "problems" |
| LeaderboardPage.AfterFetch | app/leadborad/page.tsx:38-47 | a failed fetch shows the load error; a successful one shows the rows |
| ProblemCard.LanguagesCount | components/ProblemCard.tsx:37 | the count is at most 4; 0 exactly when there are no codes or none is filled; 4 exactly when all four are filled |
| ProblemCard.ProblemId | components/ProblemCard.tsx:40 | the link id is `_id` when filled, else `id` |
| ProblemCard.ShownTags | components/ProblemCard.tsx:85 | at most 3 tags are shown: the first min(3, n) |
| ProblemCard.LanguageWord | components/ProblemCard.tsx:94 | "language" exactly when the count is 1 |
| ProblemCard.FormattedDate | components/ProblemCard.tsx:43-45 | '' without a creation time, else the formatted time |
| ProblemCard.Render | components/ProblemCard.tsx:33-100 | a byline exactly when there is an author; the language count, word, shown tags and link are those of the helpers |
| ProblemCard.StoredCodesCount | components/ProblemCard.tsx:37 | for a stored problem (all four codes present), the count is the number of non-empty snippets |
| BrowsePage.CodeAt | app/problems/page.tsx:27-28 | keys other than java, c, cpp, js find no snippet |
| BrowsePage.FilterProblems | app/problems/page.tsx:21-34 | every shown problem matches the search, language and tag |
| BrowsePage.FilterIsSelection | app/problems/page.tsx:21-34 | the result is a subsequence of the problems, and holds a problem exactly when it is listed and matches |
| BrowsePage.NeutralFiltersShowAll | app/problems/page.tsx:16-34 | the initial filters ('', All, All) show every problem |
| BrowsePage.CppAndJavaScriptShowNothing | app/problems/page.tsx:12-28 | the "C++" and "JavaScript" choices lower-case to keys that do not exist, so they show nothing |
| BrowsePage.EmptySnippetCountsAsPresent | app/problems/page.tsx:27-28 | the language filter tests presence: an empty snippet still matches |
| BrowsePage.BrowseState.ClearFilters | app/problems/page.tsx:36-40 | clearing restores the defaults, after which every problem is shown |
| DashboardPage.ToActivity | app/dashboard/page.tsx:84-88 | a problem becomes a 'problem_created' activity with its date, title and id |
| DashboardPage.ToActivities | app/dashboard/page.tsx:84-88 | one activity per problem, in order |
| DashboardPage.FeedIsFiveMostRecent | app/dashboard/page.tsx:84-93 | the feed holds min(5, n) activities, newest first, taken from the problems, with none left out newer than one shown |
| DashboardPage.FeedKinds | app/dashboard/page.tsx:84-88 | every feed entry is a 'problem_created' activity |
| DashboardPage.AfterFetch | app/dashboard/page.tsx:77-94 | a failed fetch changes nothing; the list becomes `problems || []`; the feed is replaced only when there is at least one problem |
| DashboardPage.NoProblemsNoActivities | app/dashboard/page.tsx:83 | starting empty, no problems leave no activities |
| DashboardPage.Initials | app/dashboard/page.tsx:117-119 | one character: '?' for a missing or empty name, else the upper-cased first letter |
| DashboardPage.JoinDate | app/dashboard/page.tsx:121-123 | "Recently" unless the session user has a creation time, else the formatted time |
| AddPage.FormErrors | app/add/page.tsx:29-45 | no error exactly when the title has 3 to 100 characters, the description at least 10 and there is a tag; the tag error exactly when there are no tags |
| AddPage.Payload | app/add/page.tsx:106-116 | the request carries the title, description and tags, and every code defaults to '' |
| AddPage.OnSubmit | app/add/page.tsx:97-101 | not authenticated (or no session) goes to sign-in; otherwise the payload is sent |
| AddPage.OnResponse | app/add/page.tsx:129-135 | a 2xx reply goes to the dashboard; any other stays on the form |
| AddPage.AcceptedFormIsCreated | app/add/page.tsx:97-135 | a form the schema accepts, with trimmed text and a valid session user, is created with 201 |
| AddPage.PaddedTitlePassesFormFailsSchema | app/add/page.tsx:30 | the title " ab" passes the form's length check, but the server trims it to 2 characters and answers 500 |
| AddPage.AddedTags | app/add/page.tsx:75-82 | a non-empty new tag is appended; an empty or repeated one changes nothing |
| AddPage.RemovedTags | app/add/page.tsx:84-88 | the removed tag no longer occurs |
| AddPage.AddKeepsDistinct | app/add/page.tsx:75-82 | adding keeps the tags free of duplicates |
| AddPage.RemoveExact | app/add/page.tsx:84-88 | removal keeps every other tag, in order, drops exactly one when present and changes nothing otherwise |
| AddPage.TagEditor.AddTag | app/add/page.tsx:75-82 | the tags become the added tags, the form copy follows, and the input is cleared exactly when a tag was added |
| AddPage.TagEditor.RemoveTag | app/add/page.tsx:84-88 | the tags and the form copy become the removed tags; the input is kept |
| CodeEditor.Substring | components/CodeEditor.tsx:30 | JavaScript `substring`: both bounds clamped, then swapped if reversed |
| CodeEditor.HandleKeyDown | components/CodeEditor.tsx:22-40 | only Tab is handled; it replaces the selection by two spaces and puts the caret after them |
| CodeEditor.TabReplacesSelection | components/CodeEditor.tsx:26-36 | for a valid selection: the text before is kept, two spaces follow, the text after is shifted, the length changes by 2 minus the selection, and the caret is at start + 2 |
| CodeEditor.TabAtEndAppends | components/CodeEditor.tsx:30-36 | Tab at the end appends two spaces |
| UserCollection.Public | app/api/auth/signup/route.ts:47-51 | the public account has the id, name and email, and no password |
| SignupRoute.Decide | app/api/auth/signup/route.ts:5-72 | statuses 201, 400, 500; missing fields give "All fields are required"; a short password gives 400; 201 exactly when the fields are present, the password is long enough, the database is up, the email is free and the insert succeeds; only a 201 creates a user, with the public fields returned |
| SignupRoute.ValidationMessagesJoined | app/api/auth/signup/route.ts:59-65 | a schema rejection answers 400 with the messages joined by ", " |
| SignupRoute.Signup | app/api/auth/signup/route.ts:5-72 | the store keeps unique emails; the reply is the decided one; the store grows by the new user only on 201 |
| SignupRoute.InsertKeepsEmailsUnique | app/api/auth/signup/route.ts:29-42 | inserting a user whose email is free keeps emails unique |
| SignupPage.FormErrors | app/auth/signup/page.tsx:23-37 | no error exactly when the name has 2 characters, the email is valid, the password has 6 and the confirmation matches; the confirmation error exactly on mismatch |
| SignupPage.Body | app/auth/signup/page.tsx:62-66 | the request carries name, email and password |
| SignupPage.BodyIgnoresConfirmation | app/auth/signup/page.tsx:62-66 | the confirmation is never sent |
| SignupPage.AcceptedFormPassesFieldChecks | app/auth/signup/page.tsx:23-66 | an accepted form passes the server's field checks: it is created exactly when the database is up, the email is free and the insert succeeds |
| SignupPage.OnAnswer | app/auth/signup/page.tsx:69-77 | sign-in follows exactly an ok reply with a JSON body; otherwise the error is shown |
| UpdateProfileRoute.Updated | app/api/user/update-profile/route.ts:36-67 | name, email and password change only as requested; id and creation time are kept |
| UpdateProfileRoute.Outcome | app/api/user/update-profile/route.ts:12-87 | statuses 200, 400, 401, 404, 500; 401 exactly without a session user; 200 exactly when signed in with a body, the database up, the id an ObjectId of a stored user, a new email not taken, the current password matching when a password change is asked, and the save succeeding; only a 200 changes the store, and then only the session user's record |
| UpdateProfileRoute.UpdateProfile | app/api/user/update-profile/route.ts:12-87 | the step-by-step update gives the decided reply and store, and keeps emails unique |
| UpdateProfileRoute.UpdateKeepsEmailsUnique | app/api/user/update-profile/route.ts:41-51 | changing to a free email keeps emails unique |
| UpdateProfileRoute.OthersUntouched | app/api/user/update-profile/route.ts:26-70 | no other account changes |
| UpdateProfileRoute.PasswordNeedsBothFields | app/api/user/update-profile/route.ts:54 | without both the current and the new password, the password is kept |
| UpdateProfileRoute.UnknownUserIs404 | app/api/user/update-profile/route.ts:26-33 | a well-formed session id that no account has answers 404 "User not found" and saves nothing |
| UpdateProfileRoute.WrongPasswordSavesNothing | app/api/user/update-profile/route.ts:54-62 | a password change with a non-matching current password answers 400 "Current password is incorrect" and saves nothing, not even a new name or email |
| UpdateProfileRoute.TakenEmailSavesNothing | app/api/user/update-profile/route.ts:41-51 | a taken email answers 400 "Email already in use" and saves nothing |
| ProfileForm.FormErrors | components/ProfileEditForm.tsx:20-52 | no error exactly when the name has 2 characters, the email is valid, the password fields are all or nothing and the confirmation matches |
| ProfileForm.PartialPasswordRefused | components/ProfileEditForm.tsx:30-42 | a new password without the current one is refused |
| ProfileForm.Body | components/ProfileEditForm.tsx:77-81 | the request carries name, email and both passwords |
| ProfileForm.AcceptedFormChangesPasswordOnlyWhenAllFilled | components/ProfileEditForm.tsx:30-52 | an accepted form changes the password exactly when all password fields are filled |
| ProfileForm.ProfileEditor.constructor | components/ProfileEditForm.tsx:62-68 | the defaults come from the session user; the password fields start empty |
| ProfileForm.ProfileEditor.OnAnswer | components/ProfileEditForm.tsx:83-115 | a failed reply or body changes nothing and toasts the error; success clears the password fields and, when a user came back, asks `update` to store the session with the returned name and email; the held session itself is not changed |
| AuthOptions.Attempt | lib/auth-options.ts:16-61 | success exactly when both credentials are present, the database is up, a user is found and the password matches; the returned user carries id, email, name and the join date, or now |
| AuthOptions.Authorize | lib/auth-options.ts:16-66 | the outer catch turns every failure into "Authentication failed" and keeps every success |
| AuthOptions.FailuresIndistinguishable | lib/auth-options.ts:38-65 | an unknown email, a wrong password and a database outage fail alike |
| AuthOptions.JwtUpdate | lib/auth-options.ts:78-83 | on sign-in the token takes the user's id and join date; otherwise it is unchanged |
| AuthOptions.SessionUpdate | lib/auth-options.ts:84-90 | with a token and a session user, the id becomes the token's (or '') and the join date the token's; name and email are kept |
| AuthOptions.SignedInSessionCarriesUser | lib/auth-options.ts:78-90 | under `lib/auth-options`' own `jwt` and `session` callbacks, a sign-in leaves the session carrying the user's id and join date |
| AuthOptions.JwtAfter | lib/auth-options.ts:78-83 | requests without a user, however many, leave the token as it was |
| AuthOptions.SignInPersists | lib/auth-options.ts:78-90 | under `lib/auth-options`' own callbacks, after a sign-in and any number of later requests without a user, the session still carries that user's id and join date |
| AuthOptions.Token.Jwt | lib/auth-options.ts:78-83 | the mutated token equals `JwtUpdate` of the old one |
| AuthOptions.ClientSession.SessionCallback | lib/auth-options.ts:84-90 | the mutated session user equals `SessionUpdate` of the old one |
| SigninPage.FormErrors | app/auth/signin/page.tsx:23-30 | no error exactly when the email is valid and the password has at least 6 characters |
| SigninPage.OnAnswer | app/auth/signin/page.tsx:52-75 | a throw shows the connection message; no reported error goes to the dashboard; "CredentialsSignin" shows the credentials message; an error mentioning database or connect shows the server message; any other is shown as it is |
| SigninPage.ShownAsIs | app/auth/signin/page.tsx:58-75 | a reported error other than "CredentialsSignin" that mentions neither "database" nor "connect" is shown as it is |
| SigninPage.ServedAuthorizeMessagesShownVerbatim | app/auth/signin/page.tsx:58-75 | the two errors the `/api/auth` handler's `authorize` throws, "Please enter email and password" and "Invalid email or password", are shown as they are |
| SigninPage.AuthorizeFailureShownVerbatim | app/auth/signin/page.tsx:58-75 | `lib/auth-options`' generic "Authentication failed" would also be shown as it is |
| SigninPage.DatabaseErrorsMasked | app/auth/signin/page.tsx:64-65 | any error containing "database" is shown as the server message |
| Middleware.AuthGate | middleware.ts:5-18 | a request continues exactly when it carries a token; otherwise it goes to the sign-in page |
| Middleware.Route | middleware.ts:22-43 | the misspelled leaderboard paths redirect first; the prefixed paths go to the auth gate; every other path continues |
| Middleware.Effective | middleware.ts:45-55 | an unmatched path continues; sign-in is required exactly for anonymous requests to /add, /dashboard and /api/user/... |
| Middleware.RedirectPrecedesAuth | middleware.ts:26-30 | /leadborad and /leadborad/ redirect whatever the token |
| Middleware.PrefixReachesFurtherThanMatcher | middleware.ts:33-55 | the prefix test would protect /additional, but the matcher never hands it to the middleware, and the same holds for /dashboard/settings |
| Middleware.ProtectedPagesNeedToken | middleware.ts:33-49 | anonymous requests to matched protected pages go to sign-in; signed-in ones continue |
| ClientUtils.SafeJsonParse | lib/client-utils.ts:10-27 | text that looks like HTML after trimming is refused before parsing; otherwise the parser's value, or its failure with the "Failed to parse response: " prefix; a value is only ever the parser's |
| ClientUtils.IndentedHtmlRefused | lib/client-utils.ts:14-18 | a doctype or `<html` tag after any run of white space is refused, whatever follows |
| ClientUtils.Finish | lib/client-utils.ts:87-91 | only an ok last response is returned |
| ClientUtils.EnhancedFetch | lib/client-utils.ts:32-92 | the retry loop's result, call count and pauses are those of the recursive loop definition |
| ClientUtils.Bounded | lib/client-utils.ts:41-91 | at most 3 calls; the k-th pause is 1000·(k+1) ms; a returned response is ok and came from the last call; a rethrown error is the third call's |
| ClientUtils.AnswerStops | lib/client-utils.ts:64-75 | on any call, an ok response is returned at once and a non-ok status below 500 fails at once, with no pause and no further call |
| ClientUtils.ServerErrorThenClientError | lib/client-utils.ts:64-75 | a 5xx then a 4xx: two calls, one pause of 1 second, and the 4xx reported |
| ClientUtils.ThreeServerErrors | lib/client-utils.ts:66-72 | three 5xx replies: three calls, pauses of 1, 2 and 3 seconds, then a failure |
| ClientUtils.ErrorThenSuccess | lib/client-utils.ts:76-81 | a network error is retried once and the following success returned |

## Left out

- Database connections, caching and concurrency. A connection failure, a query failure and a
  failed save are parameters. Races between a uniqueness check and an insert are not modelled.
- MongoDB's `$regex` with `$options: 'i'` is modelled as a case-insensitive substring test.
  This is exact only for queries without regular-expression metacharacters.
- The order MongoDB gives documents with equal `createdAt` is unspecified. The model keeps
  store order for ties.
- `lib/db/models/User.ts` and its pre-save password hashing are not part of this model. The
  stored password is whatever the store holds. `bcrypt.compare` is a parameter.
- `User.create` is reduced to an outcome parameter: inserted, rejected with validation
  messages, or failed.
- `app/api/user/profile/route.ts` and `app/api/problems/[id]/route.ts` are not modelled. The
  profile read filters problems on a `userId` field that the Problem schema does not have.
- `ObjectId`s are strings, and `toString` comparisons are string equality.
- `JSON.parse(JSON.stringify(...))` in the home page, and response bodies in general, are the
  modelled values themselves.
- Date formatting (`formatDistanceToNow`, `format`, `toISOString`) is a function parameter.
- next-auth's internals are outside this model: how `signIn` reports an `authorize` error, JWT
  signing and expiry, and the sign-in redirect's callback URL.
- The Next.js matcher is modelled for the listed patterns only: exact `/add` and `/dashboard`,
  and `/api/user` with any further segments.
- The 15-second abort timer and the `setTimeout` pauses are not modelled. Pauses are recorded as
  their lengths.
- `ClientUtils.EnhancedFetch`: the failure message after the loop is modelled as the last status
  only, without the status text.
- React rendering, animation, loading spinners and toasts other than their text are not modelled.
- Zod's email check is a parameter.
- ProfileForm.Body: the form also sends the confirmation field. The handler never reads it, so
  the modelled body leaves it out.
- String lengths count UTF-16 code units in the source. Here they count `char`s.
- The session `maxAge` of 30 days is recorded as the constant `AuthOptions.MaxAgeSeconds` only.
  How next-auth uses it is outside the model.
- ApiErrors.HandleApiError: the reply carries the status and the error message only. The
  source's reply also has a `timestamp` field from the clock and cache-control headers.
- ProblemModel.Create: both `createdAt` and `updatedAt` default to the single clock reading
  `now`. The schema calls `Date.now` once per field, so the two can differ by a millisecond.
- ProblemsRoute.UnknownLanguageListsNothing: the model keeps a `codes.<language>` condition
  for a key outside the schema, as Mongoose does with `strictQuery` off. No `strictQuery` is set
  in `lib/db/mongodb.ts`, and the default depends on the Mongoose version. With it on, the
  condition would be dropped and every problem listed. `ProblemsRoute.ListingSound` and
  `ProblemsRoute.ListingComplete` rest on the same assumption for such languages.
- `app/api/auth/[...nextauth]/route.ts` is the NextAuth handler that serves `/api/auth`: the
  sign-in page's `signIn` and the client's `useSession` go to it. It is not modelled beyond the
  two messages its `authorize` throws (`SigninPage.MissingFieldsMessage`,
  `SigninPage.BadCredentialsMessage`). Its own `authorize` has no outer catch, its `jwt`
  callback copies only the id, and its `session` callback sets only the id. So the client
  session never carries `createdAt`, and the dashboard's join date reads "Recently".
- AuthOptions.Attempt, AuthOptions.Authorize and the user branch of AuthOptions.JwtUpdate
  model `lib/auth-options`, which the app passes only to `getServerSession` in the API routes.
  On that path no sign-in happens. Only the no-user `jwt` branch and the `session` callback
  run. `AuthOptions.SignedInSessionCarriesUser` and `AuthOptions.SignInPersists` are facts
  about these callbacks taken alone, not about the session the app serves.
- ProfileForm.ProfileEditor.OnAnswer: the model records the session data the form asks
  next-auth's `update` to store, not the session next-auth serves afterwards. That session is
  rebuilt by the `jwt` and `session` callbacks, which have no update branch and keep the
  sign-in name and email.
- ProblemsRoute.Post: the new problem's `createdAt` and `updatedAt` are both `now`, for the
  same reason as in `ProblemModel.Create`.

=== FILE: add_page.dfy ===
/**
 * The "add problem" page: the form's own validation, the tag editor, and the
 * request body it posts to `/api/problems`.
 */
module AddPage {
  import opened Wrappers
  import opened Http
  import Text
  import Seqs
  import ProblemModel
  import ProblemsRoute

  /** The form fields; a code field may be left undefined. */
  datatype FormValues = FormValues(
    title: string,
    description: string,
    javaCode: Option<string>,
    cCode: Option<string>,
    cppCode: Option<string>,
    jsCode: Option<string>,
    tags: seq<string>)

  datatype FormError = TitleTooShort | TitleTooLong | DescriptionTooShort | NoTags

  const FormTitleMin: nat := 3
  const FormTitleMax: nat := 100
  const FormDescriptionMin: nat := 10
  const FormTagsMin: nat := 1

  /** `formSchema`: every failing field check, without trimming. */
  function FormErrors(v: FormValues): (errs: seq<FormError>)
    ensures errs == [] <==>
      FormTitleMin <= |v.title| <= FormTitleMax && |v.description| >= FormDescriptionMin && |v.tags| >= FormTagsMin
    ensures NoTags in errs <==> v.tags == []
  {
    (if |v.title| < FormTitleMin then [TitleTooShort] else [])
    + (if |v.title| > FormTitleMax then [TitleTooLong] else [])
    + (if |v.description| < FormDescriptionMin then [DescriptionTooShort] else [])
    + (if |v.tags| < FormTagsMin then [NoTags] else [])
  }

  /** `problemData`: the four code keys always present, a missing code sent as ''. */
  function Payload(v: FormValues): (body: ProblemsRoute.PostBody)
    ensures body.title == Some(v.title) && body.description == Some(v.description) && body.tags == Some(v.tags)
    ensures body.codes.java.Some? && body.codes.c.Some? && body.codes.cpp.Some? && body.codes.js.Some?
    ensures body.codes.java.value == v.javaCode.GetOr("") && body.codes.c.value == v.cCode.GetOr("")
    ensures body.codes.cpp.value == v.cppCode.GetOr("") && body.codes.js.value == v.jsCode.GetOr("")
  {
    ProblemsRoute.PostBody(Some(v.title), Some(v.description),
      ProblemModel.CodesInput(Some(v.javaCode.GetOr("")), Some(v.cCode.GetOr("")),
                              Some(v.cppCode.GetOr("")), Some(v.jsCode.GetOr(""))),
      Some(v.tags))
  }

  datatype AuthStatus = Authenticated | Unauthenticated | Loading

  datatype SubmitAction = ToSignIn | Send(body: ProblemsRoute.PostBody)

  /** `onSubmit`: without an authenticated session nothing is sent. */
  function OnSubmit(status: AuthStatus, session: Option<Session>, v: FormValues): (a: SubmitAction)
    ensures a.ToSignIn? <==> status != Authenticated || session.None?
    ensures a.Send? ==> a.body == Payload(v)
  {
    if status != Authenticated || session.None? then ToSignIn else Send(Payload(v))
  }

  datatype AfterResponse = ToDashboard | StayOnForm

  /** A non-ok response is thrown and caught: the page stays; an ok one goes to the dashboard. */
  function OnResponse(status: int): (next: AfterResponse)
    ensures next == ToDashboard <==> 200 <= status <= 299
  {
    if 200 <= status <= 299 then ToDashboard else StayOnForm
  }

  /**
   * A form the page accepts, sent by a user whose id is an ObjectId, is stored
   * when its title and description carry no surrounding white space.
   */
  lemma AcceptedFormIsCreated(session: Session, v: FormValues, store: seq<ProblemModel.Problem>, newId: string, now: int)
    requires FormErrors(v) == []
    requires session.user.Some? && ProblemModel.IsObjectId(session.user.value.id)
    requires Text.Trimmed(v.title) && Text.Trimmed(v.description)
    ensures ProblemsRoute.Post(Some(session), Some(Payload(v)), store, newId, now, Up).0.status == 201
  {
    Text.TrimmedFixed(v.title);
    Text.TrimmedFixed(v.description);
  }

  /**
   * The form counts white space the schema trims away: a title of two letters
   * padded with a space passes the form and is then refused by the server with 500.
   */
  lemma PaddedTitlePassesFormFailsSchema(session: Session, v: FormValues, store: seq<ProblemModel.Problem>, newId: string, now: int)
    requires v.title == " ab" && |v.description| >= FormDescriptionMin && v.tags != []
    requires session.user.Some? && ProblemModel.IsObjectId(session.user.value.id)
    ensures FormErrors(v) == []
    ensures ProblemsRoute.Post(Some(session), Some(Payload(v)), store, newId, now, Up).0.status == 500
  {
    assert Text.IsSpace(' ');
    assert Text.TrimStart(" ab") == "ab" by {
      assert " ab"[1..] == "ab";
    }
    assert Text.Trim(" ab") == "ab" by {
      Text.TrimmedFixed("ab");
    }
  }

  /** `tags` after `addTag`: the input is appended when it is non-empty and new. */
  function AddedTags(tags: seq<string>, input: string): (r: seq<string>)
    ensures input != "" && input !in tags ==> r == tags + [input]
    ensures input == "" || input in tags ==> r == tags
  {
    if input != "" && input !in tags then tags + [input] else tags
  }

  /** `tags.filter(tag => tag !== tagToRemove)`. */
  function RemovedTags(tags: seq<string>, t: string): (r: seq<string>)
    ensures t !in r
  {
    Seqs.Filter(tags, Other(t))
  }

  /** The filter callback `tag => tag !== t`. */
  function Other(t: string): string -> bool {
    (y: string) => y != t
  }

  /** Adding keeps the list free of duplicates. */
  lemma AddKeepsDistinct(tags: seq<string>, input: string)
    requires Seqs.NoDuplicates(tags)
    ensures Seqs.NoDuplicates(AddedTags(tags, input))
  {
    var r := AddedTags(tags, input);
    if r != tags {
      forall i, j | 0 <= i < j < |r| ensures r[i] != r[j] {
        if j == |tags| {
          assert r[i] == tags[i];
        }
      }
    }
  }

  /**
   * Removing drops exactly the given tag: every other tag stays, in the same
   * relative order, and the list stays free of duplicates.
   */
  lemma RemoveExact(tags: seq<string>, t: string, x: string)
    requires Seqs.NoDuplicates(tags)
    ensures Seqs.IsSubsequence(RemovedTags(tags, t), tags)
    ensures x != t ==> (x in RemovedTags(tags, t) <==> x in tags)
    ensures Seqs.NoDuplicates(RemovedTags(tags, t))
    ensures t in tags ==> |RemovedTags(tags, t)| == |tags| - 1
    ensures t !in tags ==> RemovedTags(tags, t) == tags
  {
    var f := Other(t);
    Seqs.FilterSubsequence(tags, f);
    Seqs.FilterMembers(tags, f, x);
    RemoveDistinct(tags, t);
    if t !in tags {
      Seqs.FilterAll(tags, f);
    }
  }

  lemma NoDuplicatesTail(s: seq<string>)
    requires s != [] && Seqs.NoDuplicates(s)
    ensures Seqs.NoDuplicates(s[1..]) && s[0] !in s[1..]
  {
    forall i, j | 0 <= i < j < |s| - 1 ensures s[1..][i] != s[1..][j] {
      assert s[1..][i] == s[i + 1] && s[1..][j] == s[j + 1];
    }
    forall k | 0 <= k < |s| - 1 ensures s[1..][k] != s[0] {
      assert s[1..][k] == s[k + 1];
    }
  }

  /** Removal keeps a duplicate-free list duplicate-free and shortens it by one exactly when the tag was there. */
  lemma {:induction false} RemoveDistinct(s: seq<string>, t: string)
    requires Seqs.NoDuplicates(s)
    ensures Seqs.NoDuplicates(RemovedTags(s, t))
    ensures t in s ==> |RemovedTags(s, t)| == |s| - 1
  {
    if s != [] {
      NoDuplicatesTail(s);
      RemoveDistinct(s[1..], t);
      var rest := RemovedTags(s[1..], t);
      assert s == [s[0]] + s[1..];
      if s[0] == t {
        Seqs.FilterAll(s[1..], Other(t));
        assert RemovedTags(s, t) == rest;
      } else {
        Seqs.FilterMembers(s[1..], Other(t), s[0]);
        assert RemovedTags(s, t) == [s[0]] + rest;
        ConsDistinct(s[0], rest);
      }
    }
  }

  lemma ConsDistinct(x: string, r: seq<string>)
    requires Seqs.NoDuplicates(r) && x !in r
    ensures Seqs.NoDuplicates([x] + r)
  {
    var c := [x] + r;
    forall i, j | 0 <= i < j < |c| ensures c[i] != c[j] {
      assert c[j] == r[j - 1];
      if i > 0 {
        assert c[i] == r[i - 1];
      }
    }
  }

  /**
   * The page's tag state: the `tags` list, the `tagInput` text and the form's
   * `tags` value, which every change sets to the new list.
   */
  class TagEditor {
    var tags: seq<string>
    var tagInput: string
    var formTags: seq<string>

    ghost predicate Valid()
      reads this
    {
      Seqs.NoDuplicates(tags) && formTags == tags
    }

    constructor ()
      ensures Valid() && tags == [] && tagInput == "" && formTags == []
    {
      tags, tagInput, formTags := [], "", [];
    }

    /** Typing into the tag field. */
    method SetInput(text: string)
      modifies this
      ensures tagInput == text && tags == old(tags) && formTags == old(formTags)
    {
      tagInput := text;
    }

    /** `addTag`: on a non-empty new tag, append it and clear the input; otherwise change nothing. */
    method AddTag()
      requires Valid()
      modifies this
      ensures Valid()
      ensures tags == AddedTags(old(tags), old(tagInput))
      ensures tagInput == if tags == old(tags) then old(tagInput) else ""
    {
      if tagInput != "" && tagInput !in tags {
        var newTags := tags + [tagInput];
        AddKeepsDistinct(tags, tagInput);
        tags := newTags;
        formTags := newTags;
        tagInput := "";
      }
    }

    /** `removeTag`. */
    method RemoveTag(t: string)
      requires Valid()
      modifies this
      ensures Valid()
      ensures tags == RemovedTags(old(tags), t) && tagInput == old(tagInput)
    {
      RemoveExact(tags, t, t);
      var newTags := RemovedTags(tags, t);
      tags := newTags;
      formTags := newTags;
    }
  }
}

=== FILE: api_errors.dfy ===
/**
 * `handleApiError`: turns whatever an API handler caught into an error reply.
 * The status and message start at 500 / a generic message and are overwritten
 * by a sequence of rules, so a later matching rule wins.
 */
module ApiErrors {
  import opened Wrappers
  import opened Http
  import Text

  /** What a handler can catch: an `Error` object, a thrown string, or anything else. */
  datatype ErrorValue =
    | ErrorObj(name: string, message: string, code: Option<int>)
    | StringErr(text: string)
    | OtherValue

  const DefaultMessage: string := "An unexpected error occurred"
  const DuplicateMessage: string := "Duplicate entry found"

  /** A MongoDB duplicate-key error. */
  predicate DuplicateKey(e: ErrorValue) {
    e.ErrorObj? && e.name == "MongoServerError" && e.code == Some(11000)
  }

  predicate MentionsAuth(message: string) {
    Text.Contains(message, "unauthorized") || Text.Contains(message, "authentication")
  }

  predicate MentionsNotFound(message: string) {
    Text.Contains(message, "not found")
  }

  /** The status, stated by priority: the rule applied last is the one that decides. */
  function StatusFor(e: ErrorValue): (status: int)
    ensures status in {400, 401, 404, 409, 500}
    ensures !e.ErrorObj? ==> status == 500
  {
    if !e.ErrorObj? then 500
    else if MentionsNotFound(e.message) then 404
    else if MentionsAuth(e.message) then 401
    else if e.name == "ValidationError" then 400
    else if DuplicateKey(e) then 409
    else 500
  }

  /** The message: the error's own, replaced by a fixed one for a duplicate key. */
  function MessageFor(e: ErrorValue): string {
    match e
    case ErrorObj(_, message, _) => if DuplicateKey(e) then DuplicateMessage else message
    case StringErr(text) => text
    case OtherValue => DefaultMessage
  }

  /** The handler, rule by rule in source order. */
  method HandleApiError<T>(e: ErrorValue) returns (reply: Reply<T>)
    ensures reply == Fail(StatusFor(e), MessageFor(e))
  {
    var message := DefaultMessage;
    var status := 500;
    if e.ErrorObj? {
      message := e.message;
      if e.name == "MongoServerError" {
        if e.code == Some(11000) {
          status := 409;
          message := DuplicateMessage;
        }
      }
      if e.name == "ValidationError" {
        status := 400;
      }
      if Text.Contains(e.message, "unauthorized") || Text.Contains(e.message, "authentication") {
        status := 401;
      }
      if Text.Contains(e.message, "not found") {
        status := 404;
      }
    } else if e.StringErr? {
      message := e.text;
    }
    reply := Fail(status, message);
  }

  /**
   * A duplicate-key error whose message also says "not found" answers 404 yet
   * keeps the duplicate-entry message: the later rule replaces the status only.
   */
  lemma LaterRuleReplacesStatusOnly(code: Option<int>, message: string)
    requires code == Some(11000) && MentionsNotFound(message)
    ensures StatusFor(ErrorObj("MongoServerError", message, code)) == 404
    ensures MessageFor(ErrorObj("MongoServerError", message, code)) == DuplicateMessage
  {
  }

  /** The text tests are case-sensitive: "Unauthorized" does not select 401. */
  lemma CapitalisedUnauthorizedIs500()
    ensures StatusFor(ErrorObj("Error", "Unauthorized", None)) == 500
  {
    var m := "Unauthorized";
    forall i | 0 <= i <= |m| - |"unauthorized"| ensures !Text.StartsWith(m[i..], "unauthorized") {
      assert i == 0 && m[0] != "unauthorized"[0];
    }
    forall i | 0 <= i <= |m| - |"not found"| ensures !Text.StartsWith(m[i..], "not found") {
      assert m[i + 3] != "not found"[3];
    }
  }
}

=== FILE: auth_options.dfy ===
/**
 * The `authOptions` configuration of `lib/auth-options`: `authorize` checks an
 * email and password against the user collection, and the `jwt` and `session`
 * callbacks carry the user's id and join date from a sign-in into the token
 * and from the token into the session. The API routes read the session
 * through this configuration; the `/api/auth` handler that signs users in
 * has its own, which is not part of this model.
 */
module AuthOptions {
  import opened Wrappers
  import opened Http
  import UserCollection

  datatype Credentials = Credentials(email: Option<string>, password: Option<string>)

  /** What `authorize` returns: id, email, name and an ISO join date; never the password. */
  datatype AuthUser = AuthUser(id: string, email: string, name: string, createdAt: string)

  const GenericFailure: string := "Authentication failed"
  const MaxAgeSeconds: nat := 30 * 24 * 60 * 60

  /**
   * The guard chain inside `authorize`, with the message each inner failure
   * throws. `found` is what `findOne({ email })` returns, `compare` the result
   * of `bcrypt.compare` (`None` when it throws), `now` the current time and
   * `iso` the ISO-8601 formatting of a time.
   */
  function Attempt(creds: Credentials, db: Db, found: Option<UserCollection.User>, compare: Option<bool>,
                   now: int, iso: int -> string): (r: Result<AuthUser, string>)
    ensures !Truthy(creds.email) || !Truthy(creds.password) ==> r == Failure("Please enter email and password")
    ensures r.Success? <==>
      Truthy(creds.email) && Truthy(creds.password) && db == Up && found.Some? && compare == Some(true)
    ensures Truthy(creds.email) && Truthy(creds.password) && db == Up && found.None?
            ==> r == Failure("Invalid email or password")
    ensures r.Success? ==>
      var u := found.value;
      r.value == AuthUser(u.id, u.email, u.name, iso(if u.createdAt.Some? then u.createdAt.value else now))
  {
    if !Truthy(creds.email) || !Truthy(creds.password) then Failure("Please enter email and password")
    else if db == ConnectFails then Failure("Database connection error. Please try again later or contact support.")
    else if db == QueryFails then Failure("Authentication error. Please try again later.")
    else if found.None? then Failure("Invalid email or password")
    else if compare.None? then Failure("Authentication error. Please try again later.")
    else if !compare.value then Failure("Invalid email or password")
    else
      assert db == Up && compare == Some(true);
      var u := found.value;
      Success(AuthUser(u.id, u.email, u.name, iso(if u.createdAt.Some? then u.createdAt.value else now)))
  }

  /** `authorize`: the outer `catch` replaces every inner failure by one message. */
  function Authorize(creds: Credentials, db: Db, found: Option<UserCollection.User>, compare: Option<bool>,
                     now: int, iso: int -> string): (r: Result<AuthUser, string>)
    ensures r.Failure? <==> Attempt(creds, db, found, compare, now, iso).Failure?
    ensures r.Failure? ==> r.error == GenericFailure
    ensures r.Success? ==> r == Attempt(creds, db, found, compare, now, iso)
  {
    match Attempt(creds, db, found, compare, now, iso)
    case Success(u) => Success(u)
    case Failure(_) => Failure(GenericFailure)
  }

  /** A wrong password and an unknown email fail alike, and so does a database outage. */
  lemma FailuresIndistinguishable(creds: Credentials, found: Option<UserCollection.User>, compare: Option<bool>,
                                  now: int, iso: int -> string, u: UserCollection.User)
    requires Truthy(creds.email) && Truthy(creds.password)
    ensures Authorize(creds, Up, None, compare, now, iso) == Failure(GenericFailure)
    ensures Authorize(creds, Up, Some(u), Some(false), now, iso) == Failure(GenericFailure)
    ensures Authorize(creds, ConnectFails, found, compare, now, iso) == Failure(GenericFailure)
  {
  }

  /** The token fields the callbacks use. */
  datatype TokenData = TokenData(id: Option<string>, createdAt: Option<string>)

  /** `jwt`: on sign-in (a user present) copy its id and join date; otherwise keep the token. */
  function JwtUpdate(t: TokenData, user: Option<AuthUser>): (r: TokenData)
    ensures user.None? ==> r == t
    ensures user.Some? ==> r.id == Some(user.value.id) && r.createdAt == Some(user.value.createdAt)
  {
    if user.Some? then TokenData(Some(user.value.id), Some(user.value.createdAt)) else t
  }

  /** `session`: with a token and a session user, set the id (or '') and the join date from the token. */
  function SessionUpdate(s: Option<SessionUser>, t: Option<TokenData>): (r: Option<SessionUser>)
    ensures s.None? || t.None? ==> r == s
    ensures s.Some? && t.Some? ==>
      && r.Some?
      && r.value.id == (if t.value.id.Some? then t.value.id.value else "")
      && r.value.createdAt == t.value.createdAt
      && r.value.name == s.value.name && r.value.email == s.value.email
  {
    if s.Some? && t.Some? then
      Some(s.value.(id := if t.value.id.Some? then t.value.id.value else "", createdAt := t.value.createdAt))
    else s
  }

  /** Under these callbacks, a successful sign-in leaves the session carrying the user's id and join date. */
  lemma SignedInSessionCarriesUser(s: SessionUser, t: TokenData, u: AuthUser)
    ensures SessionUpdate(Some(s), Some(JwtUpdate(t, Some(u)))) == Some(s.(id := u.id, createdAt := Some(u.createdAt)))
  {
  }

  /** The token after `jwt` has run once per request, `calls[k]` being the user of the k-th request. */
  function JwtAfter(t: TokenData, calls: seq<Option<AuthUser>>): (r: TokenData)
    ensures (forall k | 0 <= k < |calls| :: calls[k].None?) ==> r == t
    decreases |calls|
  {
    if calls == [] then t else JwtAfter(JwtUpdate(t, calls[0]), calls[1..])
  }

  /**
   * Under these callbacks, a sign-in followed by any number of requests
   * without a user leaves the session carrying the signed-in user's id and
   * join date.
   */
  lemma {:induction false} SignInPersists(s: SessionUser, t: TokenData, u: AuthUser, later: seq<Option<AuthUser>>)
    requires forall k | 0 <= k < |later| :: later[k].None?
    ensures SessionUpdate(Some(s), Some(JwtAfter(t, [Some(u)] + later))) == Some(s.(id := u.id, createdAt := Some(u.createdAt)))
  {
    assert ([Some(u)] + later)[1..] == later;
    assert JwtAfter(t, [Some(u)] + later) == JwtAfter(JwtUpdate(t, Some(u)), later);
    SignedInSessionCarriesUser(s, t, u);
  }

  /** The JWT as the `jwt` callback mutates it. */
  class Token {
    var id: Option<string>
    var createdAt: Option<string>

    constructor (id0: Option<string>, createdAt0: Option<string>)
      ensures id == id0 && createdAt == createdAt0
    {
      id, createdAt := id0, createdAt0;
    }

    function Data(): TokenData
      reads this
    {
      TokenData(id, createdAt)
    }

    method Jwt(user: Option<AuthUser>)
      modifies this
      ensures Data() == JwtUpdate(old(Data()), user)
    {
      if user.Some? {
        id := Some(user.value.id);
        createdAt := Some(user.value.createdAt);
      }
    }
  }

  /** The session object the `session` callback mutates. */
  class ClientSession {
    var user: Option<SessionUser>

    constructor (user0: Option<SessionUser>)
      ensures user == user0
    {
      user := user0;
    }

    method SessionCallback(token: Token?)
      modifies this
      ensures user == SessionUpdate(old(user), if token == null then None else Some(token.Data()))
    {
      if token != null && user.Some? {
        var u := user.value;
        u := u.(id := if token.id.Some? then token.id.value else "");
        u := u.(createdAt := token.createdAt);
        user := Some(u);
      }
    }
  }
}

=== FILE: browse_page.dfy ===
/**
 * The client-side browse page: the list it shows is the static problem list
 * filtered by a search text, a language choice and a tag choice, each of which
 * can be reset to its neutral value.
 */
module BrowsePage {
  import opened Wrappers
  import Text
  import Seqs
  import opened ProblemCard

  datatype ListedProblem = ListedProblem(id: string, title: string, description: string, codes: CardCodes, tags: seq<string>)

  /** The language and tag choices the page offers. */
  const Languages: seq<string> := ["All", "Java", "C", "C++", "JavaScript"]
  const TagChoices: seq<string> :=
    ["All", "array", "string", "math", "dynamic-programming", "recursion", "stack", "linked-list", "easy", "medium", "hard"]

  /** `problem.codes[key]`: undefined for a key the codes object does not have. */
  function CodeAt(codes: CardCodes, key: string): (r: Option<string>)
    ensures key !in {"java", "c", "cpp", "js"} ==> r.None?
  {
    if key == "java" then codes.java
    else if key == "c" then codes.c
    else if key == "cpp" then codes.cpp
    else if key == "js" then codes.js
    else None
  }

  predicate MatchesSearch(p: ListedProblem, query: string) {
    Text.Contains(Text.ToLower(p.title), Text.ToLower(query))
    || Text.Contains(Text.ToLower(p.description), Text.ToLower(query))
  }

  /** Presence, not non-emptiness: a key holding '' still matches. */
  predicate MatchesLanguage(p: ListedProblem, language: string) {
    language == "All" || CodeAt(p.codes, Text.ToLower(language)).Some?
  }

  predicate MatchesTag(p: ListedProblem, tag: string) {
    tag == "All" || Text.ToLower(tag) in p.tags
  }

  predicate Shown(p: ListedProblem, query: string, language: string, tag: string) {
    MatchesSearch(p, query) && MatchesLanguage(p, language) && MatchesTag(p, tag)
  }

  /** `filteredProblems`: the problems passing all three conditions, in list order. */
  function FilterProblems(problems: seq<ListedProblem>, query: string, language: string, tag: string)
    : (r: seq<ListedProblem>)
    ensures forall i :: 0 <= i < |r| ==> Shown(r[i], query, language, tag)
  {
    Seqs.Filter(problems, p => Shown(p, query, language, tag))
  }

  /** The shown list is an order-preserving selection of the full list, holding every problem that passes. */
  lemma FilterIsSelection(problems: seq<ListedProblem>, query: string, language: string, tag: string, p: ListedProblem)
    ensures Seqs.IsSubsequence(FilterProblems(problems, query, language, tag), problems)
    ensures p in FilterProblems(problems, query, language, tag) <==> p in problems && Shown(p, query, language, tag)
  {
    Seqs.FilterSubsequence(problems, p => Shown(p, query, language, tag));
    Seqs.FilterMembers(problems, p => Shown(p, query, language, tag), p);
  }

  /** With the neutral search, language and tag, every problem is shown. */
  lemma NeutralFiltersShowAll(problems: seq<ListedProblem>)
    ensures FilterProblems(problems, "", "All", "All") == problems
  {
    forall p | p in problems ensures Shown(p, "", "All", "All") {
      Text.ContainsTrivial(Text.ToLower(p.title));
    }
    Seqs.FilterAll(problems, p => Shown(p, "", "All", "All"));
  }

  /**
   * "C++" and "JavaScript" lower-case to "c++" and "javascript", which are not
   * keys of `codes`: choosing either shows nothing.
   */
  lemma CppAndJavaScriptShowNothing(problems: seq<ListedProblem>, query: string, tag: string)
    ensures FilterProblems(problems, query, "C++", tag) == []
    ensures FilterProblems(problems, query, "JavaScript", tag) == []
  {
    assert Text.ToLower("C++") == "c++";
    assert Text.ToLower("JavaScript") == "javascript";
    Seqs.FilterNone(problems, p => Shown(p, query, "C++", tag));
    Seqs.FilterNone(problems, p => Shown(p, query, "JavaScript", tag));
  }

  /** Choosing "Java" keeps a problem whose Java snippet is present but empty. */
  lemma EmptySnippetCountsAsPresent(p: ListedProblem)
    requires p.codes.java == Some("")
    ensures MatchesLanguage(p, "Java")
  {
    assert Text.ToLower("Java") == "java";
  }

  /** The page's three filter state variables. */
  class BrowseState {
    var searchQuery: string
    var selectedLanguage: string
    var selectedTag: string

    constructor ()
      ensures searchQuery == "" && selectedLanguage == "All" && selectedTag == "All"
    {
      searchQuery, selectedLanguage, selectedTag := "", "All", "All";
    }

    function Filtered(problems: seq<ListedProblem>): seq<ListedProblem>
      reads this
    {
      FilterProblems(problems, searchQuery, selectedLanguage, selectedTag)
    }

    /** `clearFilters`: afterwards the whole list is shown again. */
    method ClearFilters()
      modifies this
      ensures searchQuery == "" && selectedLanguage == "All" && selectedTag == "All"
      ensures forall problems :: Filtered(problems) == problems
    {
      searchQuery := "";
      selectedLanguage := "All";
      selectedTag := "All";
      forall problems ensures Filtered(problems) == problems {
        NeutralFiltersShowAll(problems);
      }
    }
  }
}

=== FILE: client_utils.dfy ===
/**
 * Client-side fetch helpers: the JSON parse that refuses HTML error pages,
 * and the fetch with a bounded retry loop.
 */
module ClientUtils {
  import opened Wrappers
  import Text

  const HtmlMessage: string := "Server returned HTML instead of JSON. The API might be experiencing issues."
  const ParsePrefix: string := "Failed to parse response: "

  /** The response text looks like an HTML page once surrounding white space is removed. */
  predicate LooksLikeHtml(text: string) {
    Text.StartsWith(Text.Trim(text), "<!DOCTYPE") || Text.StartsWith(Text.Trim(text), "<html")
  }

  /**
   * `safeJsonParse`: HTML is refused before parsing; otherwise the text goes
   * to the JSON parser (`parse`, which fails with a message) and a parse
   * failure becomes an error carrying that message.
   */
  function SafeJsonParse<J>(text: string, parse: string -> Result<J, string>): (r: Result<J, string>)
    ensures LooksLikeHtml(text) ==> r == Failure(HtmlMessage)
    ensures !LooksLikeHtml(text) && parse(text).Success? ==> r == parse(text)
    ensures !LooksLikeHtml(text) && parse(text).Failure? ==> r == Failure(ParsePrefix + parse(text).error)
    ensures r.Success? ==> !LooksLikeHtml(text) && r == parse(text)
  {
    if LooksLikeHtml(text) then Failure(HtmlMessage)
    else match parse(text)
      case Success(v) => Success(v)
      case Failure(m) => Failure(ParsePrefix + m)
  }

  /**
   * A page that starts with a doctype or an `<html` tag after any run of
   * white space is refused, whatever follows and whatever the parser says.
   */
  lemma IndentedHtmlRefused<J>(pad: string, marker: string, rest: string, parse: string -> Result<J, string>)
    requires forall i :: 0 <= i < |pad| ==> Text.IsSpace(pad[i])
    requires marker == "<!DOCTYPE" || marker == "<html"
    ensures SafeJsonParse(pad + marker + rest, parse) == Failure(HtmlMessage)
  {
    Text.TrimStartDropsPad(pad, marker + rest);
    assert pad + marker + rest == pad + (marker + rest);
    assert (marker + rest)[..|marker|] == marker;
    Text.TrimEndKeepsPrefix(marker + rest, marker);
  }

  /** One fetch attempt: a response with a status, or a thrown network error. */
  datatype Attempt = Response(status: int) | Throws(error: string)

  predicate IsOk(status: int) { 200 <= status <= 299 }

  datatype FetchResult =
    | Returned(status: int)              // the ok response
    | Rethrown(error: string)           // a fetch error on the last allowed attempt
    | FailedStatus(last: Option<int>)   // "Failed to fetch: <status or Unknown> ..."

  /** What one run did: the result, the number of fetch calls, and the sleeps between them in ms. */
  datatype Run = Run(result: FetchResult, attempts: nat, delays: seq<nat>)

  const MaxRetries: nat := 3

  /** The pause before the next attempt once `retries` has been incremented. */
  function Delay(retries: nat): (ms: nat)
    ensures ms == 1000 * retries
  {
    1000 * retries
  }

  /** The outcome after the loop: only an ok response is returned. */
  function Finish(response: Option<int>): (r: FetchResult)
    ensures r.Returned? <==> response.Some? && IsOk(response.value)
    ensures r.Returned? ==> r.status == response.value
  {
    if response.Some? && IsOk(response.value) then Returned(response.value) else FailedStatus(response)
  }

  /**
   * The loop of `enhancedFetch` from the state (`retries`, last `response`),
   * with `outcome(k)` the result of the k-th fetch call. Every iteration that
   * does not leave the loop increments `retries`, so the k-th call happens
   * with `retries == k`.
   */
  function Loop(outcome: nat -> Attempt, retries: nat, response: Option<int>): (r: Run)
    requires retries <= MaxRetries
    decreases MaxRetries - retries
  {
    if retries == MaxRetries then Run(Finish(response), retries, [])
    else match outcome(retries)
      case Response(status) =>
        if IsOk(status) || status < 500 then Run(Finish(Some(status)), retries + 1, [])
        else
          var rest := Loop(outcome, retries + 1, Some(status));
          Run(rest.result, rest.attempts, [Delay(retries + 1)] + rest.delays)
      case Throws(e) =>
        if retries >= 2 then Run(Rethrown(e), retries + 1, [])
        else
          var rest := Loop(outcome, retries + 1, response);
          Run(rest.result, rest.attempts, [Delay(retries + 1)] + rest.delays)
  }

  function Spec(outcome: nat -> Attempt): Run {
    Loop(outcome, 0, None)
  }

  /** Bounds and outcome of a run from any loop state. */
  lemma {:induction false} LoopShape(outcome: nat -> Attempt, retries: nat, response: Option<int>)
    requires retries <= MaxRetries
    requires response.None? || !IsOk(response.value)
    ensures var r := Loop(outcome, retries, response);
      && retries <= r.attempts <= MaxRetries
      && (r.result.Returned? ==> r.attempts >= 1 && outcome(r.attempts - 1) == Response(r.result.status)
                                 && IsOk(r.result.status))
      && (r.result.Rethrown? ==> r.attempts == MaxRetries && outcome(2) == Throws(r.result.error))
    decreases MaxRetries - retries
  {
    if retries < MaxRetries {
      match outcome(retries)
      case Response(status) =>
        if !(IsOk(status) || status < 500) {
          LoopShape(outcome, retries + 1, Some(status));
        }
      case Throws(e) =>
        if retries < 2 {
          LoopShape(outcome, retries + 1, response);
        }
    }
  }

  /** The pauses of a run from any loop state: one second more each time, at most one per call. */
  lemma {:induction false} LoopDelays(outcome: nat -> Attempt, retries: nat, response: Option<int>)
    requires retries <= MaxRetries
    ensures var r := Loop(outcome, retries, response);
      && |r.delays| <= r.attempts - retries
      && (forall k :: 0 <= k < |r.delays| ==> r.delays[k] == 1000 * (retries + k + 1))
    decreases MaxRetries - retries
  {
    if retries < MaxRetries {
      match outcome(retries)
      case Response(status) =>
        if !(IsOk(status) || status < 500) {
          LoopDelays(outcome, retries + 1, Some(status));
        }
      case Throws(e) =>
        if retries < 2 {
          LoopDelays(outcome, retries + 1, response);
        }
    }
  }

  /**
   * At most three fetch calls; the pauses grow by a second each time; an
   * ok result is the status of the last call; a rethrown error is the
   * third call's.
   */
  lemma Bounded(outcome: nat -> Attempt)
    ensures var r := Spec(outcome);
      && 1 <= r.attempts <= 3
      && |r.delays| <= r.attempts
      && (forall k :: 0 <= k < |r.delays| ==> r.delays[k] == 1000 * (k + 1))
      && (r.result.Returned? ==> IsOk(r.result.status) && outcome(r.attempts - 1) == Response(r.result.status))
      && (r.result.Rethrown? ==> outcome(2) == Throws(r.result.error))
  {
    LoopShape(outcome, 0, None);
    LoopDelays(outcome, 0, None);
  }

  /**
   * At any point of the loop, an ok response or a status below 500 ends it
   * with that call: no pause and no further call.
   */
  lemma AnswerStops(outcome: nat -> Attempt, retries: nat, response: Option<int>)
    requires retries < MaxRetries && outcome(retries).Response?
    requires IsOk(outcome(retries).status) || outcome(retries).status < 500
    ensures IsOk(outcome(retries).status) ==>
      Loop(outcome, retries, response) == Run(Returned(outcome(retries).status), retries + 1, [])
    ensures !IsOk(outcome(retries).status) ==>
      Loop(outcome, retries, response) == Run(FailedStatus(Some(outcome(retries).status)), retries + 1, [])
  {
  }

  /** A server error and then a client error: one retry, one pause, and the client error reported. */
  lemma ServerErrorThenClientError(outcome: nat -> Attempt, status: int)
    requires outcome(0).Response? && outcome(0).status >= 500
    requires outcome(1) == Response(status) && !IsOk(status) && status < 500
    ensures Spec(outcome) == Run(FailedStatus(Some(status)), 2, [1000])
  {
    AnswerStops(outcome, 1, Some(outcome(0).status));
  }

  /** Three server errors in a row: three calls, pauses of 1 s and 2 s and 3 s, then a failure. */
  lemma ThreeServerErrors(outcome: nat -> Attempt)
    requires forall k :: 0 <= k < 3 ==> outcome(k).Response? && outcome(k).status >= 500
    ensures Spec(outcome) == Run(FailedStatus(Some(outcome(2).status)), 3, [1000, 2000, 3000])
  {
    assert outcome(0).Response? && outcome(1).Response? && outcome(2).Response?;
  }

  /** A network error followed by a success: the error is retried and the success returned. */
  lemma ErrorThenSuccess(outcome: nat -> Attempt, status: int)
    requires outcome(0).Throws? && outcome(1) == Response(status) && IsOk(status)
    ensures Spec(outcome) == Run(Returned(status), 2, [1000])
  {
  }

  /** A run preceded by the pauses already taken. */
  function After(delays: seq<nat>, r: Run): Run {
    Run(r.result, r.attempts, delays + r.delays)
  }

  /** One retrying iteration: the pause is taken and the loop goes on from the next state. */
  lemma RetryStep(outcome: nat -> Attempt, retries: nat, response: Option<int>, next: Option<int>, delays: seq<nat>)
    requires retries < MaxRetries
    requires
      || (outcome(retries).Response? && !IsOk(outcome(retries).status) && outcome(retries).status >= 500
          && next == Some(outcome(retries).status))
      || (outcome(retries).Throws? && retries < 2 && next == response)
    ensures After(delays, Loop(outcome, retries, response))
         == After(delays + [Delay(retries + 1)], Loop(outcome, retries + 1, next))
  {
    var rest := Loop(outcome, retries + 1, next);
    assert delays + ([Delay(retries + 1)] + rest.delays) == delays + [Delay(retries + 1)] + rest.delays;
  }

  /** `enhancedFetch`'s loop, with `outcome(k)` the k-th fetch call's result. */
  method EnhancedFetch(outcome: nat -> Attempt) returns (result: FetchResult, attempts: nat, delays: seq<nat>)
    ensures Run(result, attempts, delays) == Spec(outcome)
  {
    var retries: nat := 0;
    var response: Option<int> := None;
    attempts := 0;
    delays := [];
    assert Spec(outcome) == After(delays, Loop(outcome, retries, response));
    while retries < MaxRetries
      invariant retries <= MaxRetries && attempts == retries
      invariant Spec(outcome) == After(delays, Loop(outcome, retries, response))
      decreases MaxRetries - retries
    {
      var a := outcome(attempts);
      attempts := attempts + 1;
      if a.Response? {
        ghost var previous := response;
        response := Some(a.status);
        if IsOk(a.status) {
          break;
        }
        if a.status >= 500 {
          RetryStep(outcome, retries, previous, response, delays);
          retries := retries + 1;
          delays := delays + [Delay(retries)];
          continue;
        }
        break;
      } else {
        if retries >= 2 {
          result := Rethrown(a.error);
          return;
        }
        RetryStep(outcome, retries, response, response, delays);
        retries := retries + 1;
        delays := delays + [Delay(retries)];
      }
    }
    result := Finish(response);
  }
}

=== FILE: code_editor.dfy ===
/**
 * The code editor's Tab handling: the selection is replaced by two spaces and
 * the caret is put just after them; every other key is left to the textarea.
 */
module CodeEditor {

  /** JavaScript `substring`'s index handling: clamp to [0, n]. */
  function Clamp(i: int, n: nat): (r: nat)
    ensures r <= n
    ensures 0 <= i <= n ==> r == i
  {
    if i < 0 then 0 else if i > n then n else i
  }

  /** `s.substring(a, b)`: both ends clamped, and swapped when the first is larger. */
  function Substring(s: string, a: int, b: int): (r: string)
    ensures Clamp(a, |s|) <= Clamp(b, |s|) ==> r == s[Clamp(a, |s|)..Clamp(b, |s|)]
    ensures Clamp(a, |s|) > Clamp(b, |s|) ==> r == s[Clamp(b, |s|)..Clamp(a, |s|)]
  {
    var x, y := Clamp(a, |s|), Clamp(b, |s|);
    if x <= y then s[x..y] else s[y..x]
  }

  datatype KeyOutcome = PassThrough | Indented(value: string, caret: int)

  const Indent: string := "  "

  /** `handleKeyDown`: `start` and `end` are the textarea's selection bounds. */
  function HandleKeyDown(key: string, value: string, start: int, end: int): (r: KeyOutcome)
    ensures r.PassThrough? <==> key != "Tab"
    ensures r.Indented? ==> r.value == Substring(value, 0, start) + Indent + Substring(value, end, |value|)
    ensures r.Indented? ==> r.caret == start + 2
  {
    if key == "Tab" then Indented(Substring(value, 0, start) + Indent + Substring(value, end, |value|), start + 2)
    else PassThrough
  }

  /**
   * For a selection inside the text, Tab replaces the selected characters by
   * two spaces, leaves the characters on either side unchanged, and puts the
   * caret right after the inserted spaces.
   */
  lemma TabReplacesSelection(value: string, start: int, end: int)
    requires 0 <= start <= end <= |value|
    ensures HandleKeyDown("Tab", value, start, end).value == value[..start] + Indent + value[end..]
    ensures |HandleKeyDown("Tab", value, start, end).value| == |value| - (end - start) + 2
    ensures forall i :: 0 <= i < start ==> HandleKeyDown("Tab", value, start, end).value[i] == value[i]
    ensures HandleKeyDown("Tab", value, start, end).value[start..start + 2] == Indent
    ensures forall i :: end <= i < |value| ==> HandleKeyDown("Tab", value, start, end).value[i - end + start + 2] == value[i]
    ensures HandleKeyDown("Tab", value, start, end).caret == start + |Indent|
  {
    var v := HandleKeyDown("Tab", value, start, end).value;
    assert v == value[..start] + Indent + value[end..];
    forall i | end <= i < |value| ensures v[i - end + start + 2] == value[i] {
      assert v[i - end + start + 2] == value[end..][i - end];
    }
  }

  /** With the caret at the end of the text, Tab appends two spaces. */
  lemma TabAtEndAppends(value: string)
    ensures HandleKeyDown("Tab", value, |value|, |value|) == Indented(value + Indent, |value| + 2)
  {
    assert value[..|value|] == value && value[|value|..] == [];
  }
}

=== FILE: dashboard_page.dfy ===
/**
 * The dashboard: the signed-in user's problems, a feed of their five most
 * recent activities, and the avatar initial and join date.
 */
module DashboardPage {
  import opened Wrappers
  import opened Populate
  import Http
  import Text
  import Seqs

  const ProblemCreated: string := "problem_created"
  const FeedLength: nat := 5

  datatype Activity = Activity(kind: string, date: int, title: string, id: string)

  function ActivityDate(a: Activity): int { a.date }

  /** One problem becomes one 'problem_created' activity carrying its date, title and id. */
  function ToActivity(p: ProblemView): (a: Activity)
    ensures a.kind == ProblemCreated && a.date == p.createdAt && a.title == p.title && a.id == p.id
  {
    Activity(ProblemCreated, p.createdAt, p.title, p.id)
  }

  function ToActivities(ps: seq<ProblemView>): (r: seq<Activity>)
    ensures |r| == |ps| && forall i :: 0 <= i < |ps| ==> r[i] == ToActivity(ps[i])
  {
    seq(|ps|, i requires 0 <= i < |ps| => ToActivity(ps[i]))
  }

  /** `map(...).sort(newest first).slice(0, 5)`. */
  function Feed(ps: seq<ProblemView>): seq<Activity> {
    Seqs.Take(Seqs.SortDesc(ToActivities(ps), ActivityDate), FeedLength)
  }

  /**
   * The feed holds at most five activities, newest first, taken from the
   * problems' activities, and none left out is more recent than one shown.
   */
  lemma FeedIsFiveMostRecent(ps: seq<ProblemView>)
    ensures |Feed(ps)| == Seqs.Min(FeedLength, |ps|)
    ensures Seqs.SortedDesc(Feed(ps), ActivityDate)
    ensures multiset(Feed(ps)) <= multiset(ToActivities(ps))
    ensures forall x, y :: x in Feed(ps) && y in multiset(ToActivities(ps)) - multiset(Feed(ps))
              ==> ActivityDate(x) >= ActivityDate(y)
  {
    Seqs.TakeNewest(ToActivities(ps), ActivityDate, FeedLength);
  }

  /** Every feed entry is a 'problem_created' activity. */
  lemma FeedKinds(ps: seq<ProblemView>)
    ensures forall a :: a in Feed(ps) ==> a.kind == ProblemCreated
  {
    var all := ToActivities(ps);
    var f := Feed(ps);
    Seqs.TakeNewest(all, ActivityDate, FeedLength);
    forall a | a in f ensures a.kind == ProblemCreated {
      assert a in multiset(f);
      assert a in multiset(all);
    }
  }

  /** The part of the page state the fetch effect sets. */
  datatype Dashboard = Dashboard(userProblems: seq<ProblemView>, activities: seq<Activity>)

  /** The outcome of `fetch('/api/user/problems')`: not ok (or thrown), or a body whose `problems` may be missing. */
  datatype Fetched = NotOk | Body(problems: Option<seq<ProblemView>>)

  /**
   * The state after the fetch: the problem list is `data.problems || []`; the
   * feed is replaced only when there is at least one problem, and otherwise
   * keeps its previous value.
   */
  function AfterFetch(prev: Dashboard, r: Fetched): (next: Dashboard)
    ensures r.NotOk? ==> next == prev
    ensures r.Body? ==> next.userProblems == r.problems.GetOr([])
    ensures r.Body? && r.problems.GetOr([]) == [] ==> next.activities == prev.activities
    ensures r.Body? && r.problems.GetOr([]) != [] ==> next.activities == Feed(r.problems.value)
  {
    match r
    case NotOk => prev
    case Body(problems) =>
      var list := problems.GetOr([]);
      Dashboard(list, if list != [] then Feed(list) else prev.activities)
  }

  /** On a fresh page a user with no problems sees an empty feed. */
  lemma NoProblemsNoActivities(r: Fetched)
    requires r.NotOk? || r.problems.GetOr([]) == []
    ensures AfterFetch(Dashboard([], []), r).activities == []
  {
  }

  /** `name?.charAt(0).toUpperCase() || '?'`. */
  function Initials(name: Option<string>): (r: string)
    ensures |r| == 1
    ensures name.None? || name.value == "" ==> r == "?"
    ensures name.Some? && name.value != "" ==> r[0] == Text.UpperChar(name.value[0])
  {
    if name.None? || name.value == "" then "?" else [Text.UpperChar(name.value[0])]
  }

  /** `joinDate`: 'Recently' without a creation date, otherwise the month and year `format` gives. */
  function JoinDate(user: Option<Http.SessionUser>, format: string -> string): (r: string)
    ensures user.None? || !Http.Truthy(user.value.createdAt) ==> r == "Recently"
    ensures user.Some? && Http.Truthy(user.value.createdAt) ==> r == format(user.value.createdAt.value)
  {
    if user.Some? && Http.Truthy(user.value.createdAt) then format(user.value.createdAt.value) else "Recently"
  }
}

=== FILE: home_page.dfy ===
/**
 * The home page's "latest problems" section: the six newest problems as cards,
 * or a placeholder inviting the visitor to add one when there are none.
 */
module HomePage {
  import opened ProblemModel
  import opened Populate
  import Seqs
  import UserCollection

  const LatestCount: nat := 6

  /**
   * `getProblems`: `find({}).sort({ createdAt: -1 }).limit(6)` with the author
   * projected to name and email; `[]` when the connection or query fails
   * (`dbOk` is false).
   */
  function GetProblems(store: seq<Problem>, users: map<UserId, UserCollection.User>, dbOk: bool)
    : (r: seq<ProblemView>)
    ensures |r| <= LatestCount
    ensures !dbOk ==> r == []
    ensures dbOk ==> |r| == Seqs.Min(LatestCount, |store|)
    ensures dbOk ==> r == Views(Latest(store), users)
  {
    if dbOk then Views(Latest(store), users) else []
  }

  /** The stored problems the section shows, before population. */
  function Latest(store: seq<Problem>): seq<Problem> {
    Seqs.Take(Seqs.SortDesc(store, CreatedAt), LatestCount)
  }

  /**
   * The shown problems are stored problems, newest first, and none of the
   * problems left out is newer than any shown one.
   */
  lemma LatestAreNewest(store: seq<Problem>)
    ensures multiset(Latest(store)) <= multiset(store)
    ensures Seqs.SortedDesc(Latest(store), CreatedAt)
    ensures forall x, y :: x in Latest(store) && y in multiset(store) - multiset(Latest(store))
              ==> x.createdAt >= y.createdAt
  {
    Seqs.TakeNewest(store, CreatedAt, LatestCount);
  }

  datatype Section = Cards(problems: seq<ProblemView>) | Placeholder

  /** `problems.length > 0 ? cards : placeholder`. */
  function Render(problems: seq<ProblemView>): (s: Section)
    ensures s.Placeholder? <==> problems == []
    ensures s.Cards? ==> s.problems == problems
  {
    if |problems| > 0 then Cards(problems) else Placeholder
  }

  /** A failed fetch, or an empty store, shows the placeholder. */
  lemma FailureShowsPlaceholder(store: seq<Problem>, users: map<UserId, UserCollection.User>, dbOk: bool)
    requires !dbOk || store == []
    ensures Render(GetProblems(store, users, dbOk)) == Placeholder
  {
  }
}

=== FILE: http.dfy ===
/** The request/response boundary: JSON replies with a status code, and the server session. */
module Http {
  import opened Wrappers

  /** `NextResponse.json(body, { status })`: either the payload or `{ error: message }`. */
  datatype Reply<T> = Reply(status: int, body: Body<T>)
  datatype Body<T> = Payload(value: T) | ErrorBody(error: string)

  function Ok<T>(status: int, value: T): Reply<T> { Reply(status, Payload(value)) }
  function Fail<T>(status: int, message: string): Reply<T> { Reply(status, ErrorBody(message)) }

  /** How the database behaves during one request: reachable, unreachable, or failing a query. */
  datatype Db = Up | ConnectFails | QueryFails

  /** `session.user` as the session callback leaves it: `id` is `token.id ?? ''`. */
  datatype SessionUser = SessionUser(id: string, name: Option<string>, email: Option<string>, createdAt: Option<string>)
  /** A server session from `getServerSession`; its absence is `None` at the call sites. */
  datatype Session = Session(user: Option<SessionUser>)

  /** JavaScript truthiness of an optional string: present and not empty. */
  predicate Truthy(o: Option<string>) {
    o.Some? && o.value != ""
  }
}

=== FILE: leaderboard_page.dfy ===
/**
 * The leaderboard page: the rows arrive already ranked from the server and
 * are shown in that order; the first three ranks get a badge and emphasis.
 */
module LeaderboardPage {
  import opened Wrappers
  import opened LeaderboardRoute

  datatype Badge = Trophy | Medal | Award | Place(n: nat)

  /** `getRankBadge(index)`. */
  function RankBadge(index: nat): (b: Badge)
    ensures b == Trophy <==> index == 0
    ensures b == Medal <==> index == 1
    ensures b == Award <==> index == 2
    ensures b.Place? <==> index >= 3
    ensures b.Place? ==> b.n == index + 1
  {
    if index == 0 then Trophy
    else if index == 1 then Medal
    else if index == 2 then Award
    else Place(index + 1)
  }

  /** `problem{count !== 1 ? 's' : ''}`. */
  function CountLabel(count: int): (word: string)
    ensures word == "problem" <==> count == 1
    ensures word == "problems" <==> count != 1
  {
    "problem" + if count != 1 then "s" else ""
  }

  datatype Highlight = Yellow | Gray | Amber

  /** The row classes and the badge variant chosen from the index. */
  datatype RowStyle = RowStyle(emphasised: bool, highlight: Option<Highlight>, filledBadge: bool)

  function StyleFor(index: nat): (style: RowStyle)
    ensures style.emphasised <==> index < 3
    ensures style.filledBadge <==> index < 3
    ensures style.highlight.Some? <==> index < 3
  {
    RowStyle(index < 3,
      if index == 0 then Some(Yellow) else if index == 1 then Some(Gray) else if index == 2 then Some(Amber) else None,
      index < 3)
  }

  datatype Row =
    | Ranked(id: UserId, badge: Badge, name: string, email: string, problemCount: nat, countWord: string, style: RowStyle)
    | EmptyRow(message: string)

  const EmptyMessage: string := "No users found. Be the first to contribute!"

  function RowFor(e: Entry, index: nat): Row {
    Ranked(e.id, RankBadge(index), e.name, e.email, e.problemCount, CountLabel(e.problemCount), StyleFor(index))
  }

  /**
   * The table body: `leaderboard.map(...)` in server order, plus the
   * placeholder row when the list is empty.
   */
  function Rows(board: seq<Entry>): (rows: seq<Row>)
    ensures board == [] ==> rows == [EmptyRow(EmptyMessage)]
    ensures board != [] ==> |rows| == |board|
    ensures board != [] ==> forall i :: 0 <= i < |board| ==> rows[i].Ranked? && rows[i].id == board[i].id
  {
    if board == [] then [EmptyRow(EmptyMessage)]
    else seq(|board|, i requires 0 <= i < |board| => RowFor(board[i], i))
  }

  /** No row is a placeholder when there are users, and only the first three rows are emphasised. */
  lemma TopThreeEmphasised(board: seq<Entry>, i: nat)
    requires i < |board|
    ensures Rows(board)[i].Ranked?
    ensures Rows(board)[i].style.emphasised <==> i < 3
    ensures Rows(board)[i].badge.Place? <==> i >= 3
  {
  }

  /** A zero count is worded in the plural, like every count other than one. */
  lemma ZeroIsPlural()
    ensures CountLabel(0) == "problems"
  {
  }

  /** What the card shows: a spinner, the fetch error, or the table. */
  datatype Screen = Loading | ErrorText(message: string) | Table(rows: seq<Row>)

  const LoadError: string := "Failed to load leaderboard data. Please try again later."

  /**
   * After the fetch settles: a failed request (`response` is `None`, or not ok)
   * shows the error text, otherwise the rows of the returned board.
   */
  function AfterFetch(response: Option<seq<Entry>>): (s: Screen)
    ensures response.None? <==> s == ErrorText(LoadError)
    ensures response.Some? ==> s == Table(Rows(response.value))
  {
    if response.None? then ErrorText(LoadError) else Table(Rows(response.value))
  }
}

=== FILE: leaderboard_route.dfy ===
/**
 * `GET /api/leaderboard`: every user with the number of problems they
 * authored, most prolific first; users with equal counts keep the order in
 * which the user collection lists them.
 */
module LeaderboardRoute {
  import opened Wrappers
  import opened Http
  import UserCollection
  import Seqs
  import ApiErrors

  type UserId = UserCollection.UserId

  /** `User.find({}).select('name email createdAt')`: the projection drops the password. */
  datatype UserRow = UserRow(id: UserId, name: string, email: string, createdAt: Option<int>)

  function Select(u: UserCollection.User): (row: UserRow)
    ensures row.id == u.id && row.name == u.name && row.email == u.email && row.createdAt == u.createdAt
  {
    UserRow(u.id, u.name, u.email, u.createdAt)
  }

  /** One `$group` result: an author value (possibly null) and how many problems carry it. */
  datatype CountDoc = CountDoc(id: Option<UserId>, problemCount: nat)

  /** The distinct values of `s`, in order of first appearance. */
  function Distinct(s: seq<Option<UserId>>): (r: seq<Option<UserId>>)
    ensures forall x :: x in r <==> x in s
    ensures forall i, j :: 0 <= i < j < |r| ==> r[i] != r[j]
  {
    if s == [] then []
    else
      var d := Distinct(s[..|s| - 1]);
      assert s == s[..|s| - 1] + [s[|s| - 1]];
      if s[|s| - 1] in d then d else d + [s[|s| - 1]]
  }

  /**
   * `Problem.aggregate([{ $group: { _id: "$author", problemCount: { $sum: 1 } } }])`
   * over the `author` values of the stored problems. MongoDB does not order the
   * groups; the model lists them in order of first appearance.
   */
  function Group(authors: seq<Option<UserId>>): (groups: seq<CountDoc>)
    ensures forall k :: 0 <= k < |groups| ==> groups[k].problemCount == multiset(authors)[groups[k].id] > 0
    ensures forall a :: a in authors ==> exists k :: 0 <= k < |groups| && groups[k].id == a
  {
    var ids := Distinct(authors);
    var groups := seq(|ids|, k requires 0 <= k < |ids| => CountDoc(ids[k], multiset(authors)[ids[k]]));
    forall k | 0 <= k < |ids| ensures multiset(authors)[ids[k]] > 0 {
      assert ids[k] in ids;
    }
    assert forall a :: a in authors ==> exists k :: 0 <= k < |groups| && groups[k].id == a by {
      forall a | a in authors ensures exists k :: 0 <= k < |groups| && groups[k].id == a {
        var k :| 0 <= k < |ids| && ids[k] == a;
        assert groups[k].id == a;
      }
    }
    groups
  }

  /** `userCounts.find(count => count._id && count._id.toString() === user._id.toString())`. */
  function FindCount(groups: seq<CountDoc>, id: UserId): (r: Option<CountDoc>)
    ensures r.Some? ==> r.value in groups && r.value.id == Some(id)
    ensures r.None? ==> forall k :: 0 <= k < |groups| ==> groups[k].id != Some(id)
  {
    if groups == [] then None
    else if groups[0].id.Some? && groups[0].id.value == id then Some(groups[0])
    else FindCount(groups[1..], id)
  }

  /** One leaderboard row: id, name, email, problem count and join date; no password. */
  datatype Entry = Entry(id: UserId, name: string, email: string, problemCount: nat, createdAt: Option<int>)

  function ProblemCount(e: Entry): int { e.problemCount }

  /** The row built for one user: a missing group counts as 0. */
  function EntryFor(u: UserRow, groups: seq<CountDoc>): Entry {
    var found := FindCount(groups, u.id);
    Entry(u.id, u.name, u.email, if found.Some? then found.value.problemCount else 0, u.createdAt)
  }

  /** `users.map(...)`: one row per user, in user order. */
  function Join(users: seq<UserCollection.User>, groups: seq<CountDoc>): (rows: seq<Entry>)
    ensures |rows| == |users|
    ensures forall i :: 0 <= i < |users| ==> rows[i] == EntryFor(Select(users[i]), groups)
  {
    seq(|users|, i requires 0 <= i < |users| => EntryFor(Select(users[i]), groups))
  }

  /** The response body: the joined rows after the stable sort by count, largest first. */
  function Leaderboard(users: seq<UserCollection.User>, authors: seq<Option<UserId>>): seq<Entry> {
    Seqs.SortDesc(Join(users, Group(authors)), ProblemCount)
  }

  /**
   * The handler. `failure` is the error a failing connection or query throws;
   * it is handed to the shared error handler.
   */
  method Get(users: seq<UserCollection.User>, authors: seq<Option<UserId>>, failure: Option<ApiErrors.ErrorValue>)
    returns (reply: Reply<seq<Entry>>)
    ensures failure.Some? ==>
      reply == Fail(ApiErrors.StatusFor(failure.value), ApiErrors.MessageFor(failure.value))
    ensures failure.None? ==> reply == Ok(200, Leaderboard(users, authors))
  {
    if failure.Some? {
      reply := ApiErrors.HandleApiError(failure.value);
      return;
    }
    var groups := Group(authors);
    var data := new Entry[|users|](i requires 0 <= i < |users| => EntryFor(Select(users[i]), groups));
    assert data[..] == Join(users, groups);
    Seqs.SortInPlace(data, ProblemCount);
    reply := Ok(200, data[..]);
  }

  /** A user's count is the number of stored problems that name them as author. */
  lemma CountIsAuthored(authors: seq<Option<UserId>>, u: UserRow)
    ensures EntryFor(u, Group(authors)).problemCount == multiset(authors)[Some(u.id)]
  {
    if FindCount(Group(authors), u.id).None? {
      assert Some(u.id) !in authors;
    }
  }

  /**
   * Exactly one row per user: the board is a reordering of the per-user rows,
   * so neither a null author nor an author id that matches no user ever
   * produces a row.
   */
  lemma OneRowPerUser(users: seq<UserCollection.User>, authors: seq<Option<UserId>>)
    ensures |Leaderboard(users, authors)| == |users|
    ensures multiset(Leaderboard(users, authors)) == multiset(Join(users, Group(authors)))
    ensures forall e :: e in Leaderboard(users, authors) ==>
      exists i :: 0 <= i < |users| && e.id == users[i].id && e.problemCount == multiset(authors)[Some(users[i].id)]
  {
    var joined := Join(users, Group(authors));
    forall e | e in Leaderboard(users, authors)
      ensures exists i :: 0 <= i < |users| && e.id == users[i].id && e.problemCount == multiset(authors)[Some(users[i].id)]
    {
      assert e in multiset(Leaderboard(users, authors));
      assert e in joined;
      var i :| 0 <= i < |users| && joined[i] == e;
      CountIsAuthored(authors, Select(users[i]));
    }
  }

  /** Most problems first; rows with equal counts keep their user-collection order. */
  lemma RankedAndStable(users: seq<UserCollection.User>, authors: seq<Option<UserId>>, count: int)
    ensures Seqs.SortedDesc(Leaderboard(users, authors), ProblemCount)
    ensures Seqs.WithKey(Leaderboard(users, authors), ProblemCount, count)
         == Seqs.WithKey(Join(users, Group(authors)), ProblemCount, count)
  {
    Seqs.SortStable(Join(users, Group(authors)), ProblemCount, count);
  }
}

=== FILE: middleware.dfy ===
/**
 * The request middleware: the redirect of the misspelled leaderboard path,
 * the token gate in front of the protected path prefixes, and the matcher
 * that decides which paths reach the middleware at all.
 */
module Middleware {
  import opened Wrappers
  import Text
  import AuthOptions

  const SignInPage: string := "/auth/signin"
  const LeaderboardPage: string := "/leaderboard"

  datatype Decision = Continue | Redirect(to: string) | ToSignIn(page: string)

  /** The `authorized` callback: a request is authorized exactly when it carries a token. */
  predicate Authorized(token: Option<AuthOptions.TokenData>) {
    token.Some?
  }

  /** The auth middleware: authorized requests continue, the others go to the sign-in page. */
  function AuthGate(token: Option<AuthOptions.TokenData>): (d: Decision)
    ensures d == Continue <==> Authorized(token)
    ensures d != Continue ==> d == ToSignIn(SignInPage)
  {
    if Authorized(token) then Continue else ToSignIn(SignInPage)
  }

  predicate Misspelled(path: string) {
    path == "/leadborad" || path == "/leadborad/"
  }

  /** The prefix test in front of the auth middleware. */
  predicate Protected(path: string) {
    Text.StartsWith(path, "/add") || Text.StartsWith(path, "/dashboard") || Text.StartsWith(path, "/api/user/")
  }

  /** The default `middleware` function, for a request that reaches it. */
  function Route(path: string, token: Option<AuthOptions.TokenData>): (d: Decision)
    ensures Misspelled(path) ==> d == Redirect(LeaderboardPage)
    ensures !Misspelled(path) && Protected(path) ==> d == AuthGate(token)
    ensures !Misspelled(path) && !Protected(path) ==> d == Continue
    ensures d.Redirect? <==> Misspelled(path)
    ensures d.ToSignIn? <==> !Misspelled(path) && Protected(path) && !Authorized(token)
  {
    if Misspelled(path) then Redirect(LeaderboardPage)
    else if Protected(path) then AuthGate(token)
    else Continue
  }

  /**
   * The `config.matcher` list: `/add` and `/dashboard` exactly, `/api/user`
   * with any further segments, and the two misspelled leaderboard paths.
   */
  predicate Matched(path: string) {
    || path == "/add" || path == "/dashboard"
    || path == "/api/user" || Text.StartsWith(path, "/api/user/")
    || Misspelled(path)
  }

  /** What a request to `path` meets: the middleware only for matched paths, otherwise nothing. */
  function Effective(path: string, token: Option<AuthOptions.TokenData>): (d: Decision)
    ensures !Matched(path) ==> d == Continue
    ensures d.ToSignIn? <==>
      !Authorized(token) && (path == "/add" || path == "/dashboard" || Text.StartsWith(path, "/api/user/"))
  {
    MatchedProtected(path);
    if Matched(path) then Route(path, token) else Continue
  }

  /** Among matched paths, the protected ones are exactly "/add", "/dashboard" and "/api/user/..." */
  lemma MatchedProtected(path: string)
    ensures Matched(path) && !Misspelled(path) && Protected(path) <==>
      path == "/add" || path == "/dashboard" || Text.StartsWith(path, "/api/user/")
  {
    if Misspelled(path) {
      assert path[1] == 'l';
    }
    if path == "/api/user" {
      assert path[2] != "/add"[2];
      assert !Text.StartsWith(path, "/dashboard");
    }
  }

  /** The misspelled leaderboard path is redirected whatever the token, before any auth check. */
  lemma RedirectPrecedesAuth(token: Option<AuthOptions.TokenData>)
    ensures Route("/leadborad", token) == Redirect(LeaderboardPage)
    ensures Route("/leadborad/", token) == Redirect(LeaderboardPage)
    ensures Effective("/leadborad/", token) == Redirect(LeaderboardPage)
  {
  }

  /**
   * The middleware function would send an anonymous request for
   * "/additional" to sign in, because its test is a prefix test; but the
   * matcher never hands that path to it, so the request continues.
   */
  lemma PrefixReachesFurtherThanMatcher()
    ensures Protected("/additional")
    ensures Route("/additional", None) == ToSignIn(SignInPage)
    ensures Effective("/additional", None) == Continue
    ensures Effective("/dashboard/settings", None) == Continue
  {
    var p := "/additional";
    assert p[..4] == "/add";
    assert !Matched(p) by {
      assert p[2] != "/api/user/"[2];
      assert p[1] != "/leadborad"[1];
    }
    var q := "/dashboard/settings";
    assert !Matched(q) by {
      assert q[1] != "/api/user/"[1];
      assert q[1] != "/leadborad"[1];
    }
  }

  /** An anonymous request to a matched protected page is sent to sign in; a signed-in one continues. */
  lemma ProtectedPagesNeedToken(t: AuthOptions.TokenData, rest: string)
    ensures Effective("/dashboard", None) == ToSignIn(SignInPage)
    ensures Effective("/add", Some(t)) == Continue
    ensures Effective("/api/user/" + rest, None) == ToSignIn(SignInPage)
    ensures Effective("/api/user/" + rest, Some(t)) == Continue
  {
    assert ("/api/user/" + rest)[..|"/api/user/"|] == "/api/user/";
  }
}

=== FILE: populate.dfy ===
/**
 * `.populate('author', 'name email')`: a problem as returned by the read
 * handlers, with the author reference replaced by the author's name and email
 * only (null when no user has that id).
 */
module Populate {
  import opened Wrappers
  import opened ProblemModel
  import UserCollection

  datatype AuthorView = AuthorView(name: string, email: string)

  datatype ProblemView = ProblemView(
    id: string,
    title: string,
    description: string,
    codes: Codes,
    tags: seq<string>,
    author: Option<AuthorView>,
    createdAt: int,
    updatedAt: int)

  /** The stored document behind a view, given the author id the view dropped. */
  function Unpopulate(v: ProblemView, author: UserId): Problem {
    Problem(v.id, v.title, v.description, v.codes, v.tags, author, v.createdAt, v.updatedAt)
  }

  function View(p: Problem, users: map<UserId, UserCollection.User>): (v: ProblemView)
    ensures Unpopulate(v, p.author) == p
    ensures v.author.Some? <==> p.author in users
    ensures p.author in users ==>
      v.author.value.name == users[p.author].name && v.author.value.email == users[p.author].email
  {
    ProblemView(p.id, p.title, p.description, p.codes, p.tags,
      if p.author in users then Some(AuthorView(users[p.author].name, users[p.author].email)) else None,
      p.createdAt, p.updatedAt)
  }

  function Views(ps: seq<Problem>, users: map<UserId, UserCollection.User>): (vs: seq<ProblemView>)
    ensures |vs| == |ps|
    ensures forall i :: 0 <= i < |ps| ==> vs[i] == View(ps[i], users)
  {
    seq(|ps|, i requires 0 <= i < |ps| => View(ps[i], users))
  }
}

=== FILE: problem_card.dfy ===
/**
 * The problem card: the link target, the first three tags, the number of
 * languages with a snippet, and the author and date line.
 */
module ProblemCard {
  import opened Wrappers
  import Seqs

  /** A `codes` object whose keys may each be missing. */
  datatype CardCodes = CardCodes(java: Option<string>, c: Option<string>, cpp: Option<string>, js: Option<string>)

  datatype CardAuthor = CardAuthor(name: string, email: string)

  /**
   * What a card receives: a stored problem (with `_id`) or a static one (with
   * `id` only); `codes`, `tags`, `author` and `createdAt` may be missing.
   */
  datatype CardProblem = CardProblem(
    docId: Option<string>,
    id: Option<string>,
    title: string,
    description: string,
    codes: Option<CardCodes>,
    tags: Option<seq<string>>,
    author: Option<CardAuthor>,
    createdAt: Option<int>)

  /** `Boolean(value)` for a string that may be missing. */
  predicate Filled(o: Option<string>) {
    o.Some? && o.value != ""
  }

  function Indicator(b: bool): nat { if b then 1 else 0 }

  /** `Object.values(problem.codes || {}).filter(Boolean).length`. */
  function LanguagesCount(codes: Option<CardCodes>): (n: nat)
    ensures n <= 4
    ensures codes.None? ==> n == 0
    ensures n == 0 <==> codes.None? || !(Filled(codes.value.java) || Filled(codes.value.c) || Filled(codes.value.cpp) || Filled(codes.value.js))
    ensures n == 4 <==> codes.Some? && Filled(codes.value.java) && Filled(codes.value.c) && Filled(codes.value.cpp) && Filled(codes.value.js)
  {
    if codes.None? then 0
    else
      var v := codes.value;
      Indicator(Filled(v.java)) + Indicator(Filled(v.c)) + Indicator(Filled(v.cpp)) + Indicator(Filled(v.js))
  }

  /** `problem._id || problem.id`: `None` is the `undefined` the link would then carry. */
  function ProblemId(p: CardProblem): (r: Option<string>)
    ensures Filled(p.docId) ==> r == p.docId
    ensures !Filled(p.docId) ==> r == p.id
  {
    if Filled(p.docId) then p.docId else p.id
  }

  const ShownTagLimit: nat := 3

  /** `problem.tags && problem.tags.slice(0, 3)`: nothing when there are no tags. */
  function ShownTags(tags: Option<seq<string>>): (r: seq<string>)
    ensures |r| <= ShownTagLimit
    ensures tags.None? ==> r == []
    ensures tags.Some? ==> |r| == Seqs.Min(ShownTagLimit, |tags.value|) && r == tags.value[..|r|]
  {
    if tags.None? then [] else Seqs.Take(tags.value, ShownTagLimit)
  }

  /** `languagesCount === 1 ? 'language' : 'languages'`. */
  function LanguageWord(count: nat): (word: string)
    ensures word == "language" <==> count == 1
    ensures word == "languages" <==> count != 1
  {
    if count == 1 then "language" else "languages"
  }

  /**
   * `formattedDate`: '' without a creation date; otherwise whatever the
   * relative-date formatter `format` makes of it.
   */
  function FormattedDate(createdAt: Option<int>, format: int -> string): (r: string)
    ensures createdAt.None? ==> r == ""
    ensures createdAt.Some? ==> r == format(createdAt.value)
  {
    if createdAt.None? then "" else format(createdAt.value)
  }

  /** The values a card renders. */
  datatype Card = Card(
    href: Option<string>,
    title: string,
    description: string,
    byline: Option<string>,
    date: string,
    tags: seq<string>,
    languages: nat,
    languageWord: string)

  function Render(p: CardProblem, format: int -> string): (card: Card)
    ensures card.byline.Some? <==> p.author.Some?
    ensures card.languages == LanguagesCount(p.codes) && card.languageWord == LanguageWord(card.languages)
    ensures card.tags == ShownTags(p.tags) && card.href == ProblemId(p)
  {
    var n := LanguagesCount(p.codes);
    Card(ProblemId(p), p.title, p.description,
      if p.author.Some? then Some(p.author.value.name) else None,
      FormattedDate(p.createdAt, format), ShownTags(p.tags), n, LanguageWord(n))
  }

  /**
   * A stored problem always has all four snippets (empty by default), so its
   * count is the number of non-empty snippets.
   */
  lemma StoredCodesCount(java: string, c: string, cpp: string, js: string)
    ensures LanguagesCount(Some(CardCodes(Some(java), Some(c), Some(cpp), Some(js))))
         == Indicator(java != "") + Indicator(c != "") + Indicator(cpp != "") + Indicator(js != "")
  {
  }
}

=== FILE: problem_model.dfy ===
/**
 * The Problem document schema: trimmed, length-checked title and description,
 * four optional code snippets defaulting to '', a tag list defaulting to [],
 * a required author reference, and creation/update times defaulting to now.
 * Times are integers.
 */
module ProblemModel {
  import opened Wrappers
  import Text

  type UserId = string

  /** The fixed language keys of `codes`. */
  datatype Lang = Java | C | Cpp | Js

  /** The key under `codes` that stores a language's snippet. */
  function LangKey(l: Lang): string {
    match l
    case Java => "java"
    case C => "c"
    case Cpp => "cpp"
    case Js => "js"
  }

  /** The language whose `codes` key is `key`, if any. */
  function LangOfKey(key: string): (r: Option<Lang>)
    ensures r.Some? ==> LangKey(r.value) == key
    ensures r.None? ==> forall l: Lang :: LangKey(l) != key
  {
    if key == "java" then Some(Java)
    else if key == "c" then Some(C)
    else if key == "cpp" then Some(Cpp)
    else if key == "js" then Some(Js)
    else None
  }

  datatype Codes = Codes(java: string, c: string, cpp: string, js: string)

  function CodeFor(codes: Codes, l: Lang): string {
    match l
    case Java => codes.java
    case C => codes.c
    case Cpp => codes.cpp
    case Js => codes.js
  }

  datatype Problem = Problem(
    id: string,
    title: string,
    description: string,
    codes: Codes,
    tags: seq<string>,
    author: UserId,
    createdAt: int,
    updatedAt: int)

  /** The sort key of `.sort({ createdAt: -1 })`. */
  function CreatedAt(p: Problem): int { p.createdAt }

  /** The fields handed to `Problem.create`; `None` is an absent (undefined) field. */
  datatype CodesInput = CodesInput(java: Option<string>, c: Option<string>, cpp: Option<string>, js: Option<string>)
  datatype ProblemInput = ProblemInput(
    title: Option<string>,
    description: Option<string>,
    codes: CodesInput,
    tags: Option<seq<string>>,
    author: Option<UserId>,
    createdAt: Option<int>,
    updatedAt: Option<int>)

  datatype SchemaError =
    | TitleRequired | TitleTooShort | TitleTooLong
    | DescriptionRequired | DescriptionTooShort
    | AuthorRequired | AuthorNotObjectId

  const TitleMinLength := 3
  const TitleMaxLength := 100
  const DescriptionMinLength := 10

  predicate IsHexDigit(c: char) {
    '0' <= c <= '9' || 'a' <= c <= 'f' || 'A' <= c <= 'F'
  }

  /** A string that casts to an ObjectId: 24 hexadecimal digits. */
  predicate IsObjectId(s: string) {
    |s| == 24 && forall i :: 0 <= i < |s| ==> IsHexDigit(s[i])
  }

  /**
   * The first failing validator on the title path, after the `trim` setter:
   * `required` (absent or empty), then `minlength`, then `maxlength`.
   */
  function TitleError(title: Option<string>): (e: Option<SchemaError>)
    ensures e.None? <==> title.Some? && TitleMinLength <= |Text.Trim(title.value)| <= TitleMaxLength
  {
    if title.None? then Some(TitleRequired)
    else
      var t := Text.Trim(title.value);
      if t == "" then Some(TitleRequired)
      else if |t| < TitleMinLength then Some(TitleTooShort)
      else if |t| > TitleMaxLength then Some(TitleTooLong)
      else None
  }

  function DescriptionError(description: Option<string>): (e: Option<SchemaError>)
    ensures e.None? <==> description.Some? && |Text.Trim(description.value)| >= DescriptionMinLength
  {
    if description.None? then Some(DescriptionRequired)
    else
      var d := Text.Trim(description.value);
      if d == "" then Some(DescriptionRequired)
      else if |d| < DescriptionMinLength then Some(DescriptionTooShort)
      else None
  }

  function AuthorError(author: Option<UserId>): (e: Option<SchemaError>)
    ensures e.None? <==> author.Some? && IsObjectId(author.value)
  {
    if author.None? then Some(AuthorRequired)
    else if !IsObjectId(author.value) then Some(AuthorNotObjectId)
    else None
  }

  function Errors(checks: seq<Option<SchemaError>>): (r: seq<SchemaError>)
    ensures r == [] <==> forall i :: 0 <= i < |checks| ==> checks[i].None?
  {
    if checks == [] then []
    else (if checks[0].Some? then [checks[0].value] else []) + Errors(checks[1..])
  }

  /** All failing paths of a document, in schema order. */
  function Violations(input: ProblemInput): (r: seq<SchemaError>)
    ensures r == [] <==>
      TitleError(input.title).None? && DescriptionError(input.description).None? && AuthorError(input.author).None?
  {
    var checks := [TitleError(input.title), DescriptionError(input.description), AuthorError(input.author)];
    assert checks[0] == TitleError(input.title) && checks[1] == DescriptionError(input.description)
      && checks[2] == AuthorError(input.author);
    Errors(checks)
  }

  /** What a stored Problem always satisfies. */
  predicate WellFormed(p: Problem) {
    && Text.Trimmed(p.title)
    && TitleMinLength <= |p.title| <= TitleMaxLength
    && Text.Trimmed(p.description)
    && |p.description| >= DescriptionMinLength
    && IsObjectId(p.author)
  }

  /**
   * `Problem.create(input)`: validate, then fill the defaults. `now` is the
   * clock reading used by the `createdAt` and `updatedAt` defaults.
   */
  function Create(input: ProblemInput, id: string, now: int): (r: Result<Problem, seq<SchemaError>>)
    ensures r.Failure? ==> r.error != [] && r.error == Violations(input)
    ensures r.Success? <==>
      && input.title.Some? && TitleMinLength <= |Text.Trim(input.title.value)| <= TitleMaxLength
      && input.description.Some? && |Text.Trim(input.description.value)| >= DescriptionMinLength
      && input.author.Some? && IsObjectId(input.author.value)
    ensures r.Success? ==> WellFormed(r.value)
    ensures r.Success? ==>
      && r.value.id == id
      && r.value.title == Text.Trim(input.title.value)
      && r.value.description == Text.Trim(input.description.value)
      && r.value.author == input.author.value
      && r.value.tags == input.tags.GetOr([])
      && r.value.codes == Codes(input.codes.java.GetOr(""), input.codes.c.GetOr(""),
                                input.codes.cpp.GetOr(""), input.codes.js.GetOr(""))
      && r.value.createdAt == input.createdAt.GetOr(now)
      && r.value.updatedAt == input.updatedAt.GetOr(now)
  {
    var errors := Violations(input);
    if errors != [] then Failure(errors)
    else
      Success(Problem(
        id,
        Text.Trim(input.title.value),
        Text.Trim(input.description.value),
        Codes(input.codes.java.GetOr(""), input.codes.c.GetOr(""),
              input.codes.cpp.GetOr(""), input.codes.js.GetOr("")),
        input.tags.GetOr([]),
        input.author.value,
        input.createdAt.GetOr(now),
        input.updatedAt.GetOr(now)))
  }

  /** The input that describes an existing document field for field. */
  function InputOf(p: Problem): ProblemInput {
    ProblemInput(Some(p.title), Some(p.description),
      CodesInput(Some(p.codes.java), Some(p.codes.c), Some(p.codes.cpp), Some(p.codes.js)),
      Some(p.tags), Some(p.author), Some(p.createdAt), Some(p.updatedAt))
  }

  /** Round trip: re-creating a well-formed document from its own fields gives it back unchanged. */
  lemma CreateRoundTrip(p: Problem, now: int)
    requires WellFormed(p)
    ensures Create(InputOf(p), p.id, now) == Success(p)
  {
    Text.TrimmedFixed(p.title);
    Text.TrimmedFixed(p.description);
  }

  /** With only the required fields given, every code is '', there are no tags and both times are now. */
  lemma CreateDefaults(title: string, description: string, author: UserId, id: string, now: int)
    requires TitleMinLength <= |Text.Trim(title)| <= TitleMaxLength
    requires |Text.Trim(description)| >= DescriptionMinLength
    requires IsObjectId(author)
    ensures var r := Create(ProblemInput(Some(title), Some(description), CodesInput(None, None, None, None),
                                         None, Some(author), None, None), id, now);
      && r.Success?
      && r.value.codes == Codes("", "", "", "")
      && r.value.tags == []
      && r.value.createdAt == now == r.value.updatedAt
  {
  }

  /** A title made only of white space is rejected as missing, whatever its length. */
  lemma BlankTitleRejected(input: ProblemInput, id: string, now: int)
    requires input.title.Some? && forall i :: 0 <= i < |input.title.value| ==> Text.IsSpace(input.title.value[i])
    ensures Create(input, id, now).Failure?
    ensures TitleRequired in Create(input, id, now).error
  {
  }
}

=== FILE: problems_route.dfy ===
/**
 * The `/api/problems` handlers: GET returns one problem by `id`, or the list
 * filtered by `query`, `language` and `tag`, newest first; POST creates a
 * problem for the signed-in user after a fixed sequence of guards.
 */
module ProblemsRoute {
  import opened Wrappers
  import opened ProblemModel
  import opened Populate
  import opened Http
  import Text
  import Seqs
  import UserCollection

  type Users = map<UserId, UserCollection.User>

  /** The URL search parameters; `None` is a parameter that is not present. */
  datatype SearchParams = SearchParams(id: Option<string>, query: Option<string>, language: Option<string>, tag: Option<string>)

  /** The MongoDB filter document: the `$or` text clause, the `codes.<language>` clause and the `tags` clause. */
  datatype QueryObj = QueryObj(text: Option<string>, codePath: Option<string>, tag: Option<string>)

  /**
   * `{ $regex: query, $options: 'i' }` on one field: a case-insensitive
   * substring test (exact for queries without regular-expression metacharacters).
   */
  predicate MatchesText(field: string, query: string) {
    Text.Contains(Text.ToLower(field), Text.ToLower(query))
  }

  /** `{ $exists: true, $ne: '' }` on `codes.<key>`: a schema language whose snippet is not empty. */
  predicate HasCode(p: Problem, key: string) {
    var l := LangOfKey(key);
    l.Some? && CodeFor(p.codes, l.value) != ""
  }

  /** A stored problem satisfies the filter document. */
  predicate Matches(q: QueryObj, p: Problem) {
    && (q.text.Some? ==> MatchesText(p.title, q.text.value) || MatchesText(p.description, q.text.value))
    && (q.codePath.Some? ==> HasCode(p, q.codePath.value))
    && (q.tag.Some? ==> q.tag.value in p.tags)
  }

  /** The list criteria after `searchParams.get(x) || ''`. */
  datatype Criteria = Criteria(query: string, language: string, tag: string)

  function CriteriaOf(params: SearchParams): Criteria {
    Criteria(params.query.GetOr(""), params.language.GetOr(""), params.tag.GetOr(""))
  }

  /** What the list promises of each returned problem: every non-empty criterion holds. */
  predicate Admits(c: Criteria, p: Problem) {
    && (c.query == "" || MatchesText(p.title, c.query) || MatchesText(p.description, c.query))
    && (c.language == "" || HasCode(p, c.language))
    && (c.tag == "" || c.tag in p.tags)
  }

  /** Builds the filter document one clause at a time; an empty criterion adds no clause. */
  method BuildQuery(c: Criteria) returns (q: QueryObj)
    ensures forall p :: Matches(q, p) <==> Admits(c, p)
    ensures c == Criteria("", "", "") ==> q == QueryObj(None, None, None)
  {
    q := QueryObj(None, None, None);
    if c.query != "" {
      q := q.(text := Some(c.query));
    }
    if c.language != "" {
      q := q.(codePath := Some(c.language));
    }
    if c.tag != "" {
      q := q.(tag := Some(c.tag));
    }
  }

  /** `Problem.find(queryObj).sort({ createdAt: -1 })` over the store, before population. */
  function Listing(store: seq<Problem>, c: Criteria): seq<Problem> {
    Seqs.SortDesc(Seqs.Filter(store, p => Admits(c, p)), CreatedAt)
  }

  /** `Problem.findById(id)`: the first document with that id. */
  function FindById(store: seq<Problem>, id: string): (r: Option<Problem>)
    ensures r.Some? ==> r.value in store && r.value.id == id
    ensures r.None? ==> forall i :: 0 <= i < |store| ==> store[i].id != id
  {
    if store == [] then None
    else if store[0].id == id then Some(store[0])
    else FindById(store[1..], id)
  }

  datatype GetPayload = One(problem: ProblemView) | Many(problems: seq<ProblemView>)

  /**
   * The by-id branch. A connection failure reaches the outer handler; an id
   * that does not cast to an ObjectId, or a failing query, is caught by the
   * inner handler; both answer 500.
   */
  function ById(store: seq<Problem>, users: Users, id: string, db: Db): (reply: Reply<GetPayload>)
    ensures reply.status in {200, 404, 500}
    ensures reply.status == 500 <==> db != Up || !IsObjectId(id)
    ensures reply.status == 404 <==> db == Up && IsObjectId(id) && FindById(store, id).None?
    ensures reply.status == 200 ==> reply.body == Payload(One(View(FindById(store, id).value, users)))
  {
    if db == ConnectFails then Fail(500, "Failed to fetch problems")
    else if db == QueryFails || !IsObjectId(id) then Fail(500, "Failed to fetch problem")
    else
      assert db.Up?;
      match FindById(store, id)
      case None => Fail(404, "Problem not found")
      case Some(p) => Ok(200, One(View(p, users)))
  }

  /** GET /api/problems. */
  method Get(params: SearchParams, store: seq<Problem>, users: Users, db: Db) returns (reply: Reply<GetPayload>)
    ensures Truthy(params.id) ==> reply == ById(store, users, params.id.value, db)
    ensures !Truthy(params.id) && db != Up ==> reply == Fail(500, "Failed to fetch problems")
    ensures !Truthy(params.id) && db == Up ==>
      reply == Ok(200, Many(Views(Listing(store, CriteriaOf(params)), users)))
  {
    if Truthy(params.id) {
      return ById(store, users, params.id.value, db);
    }
    var c := CriteriaOf(params);
    if db != Up {
      return Fail(500, "Failed to fetch problems");
    }
    var q := BuildQuery(c);
    Seqs.FilterExt(store, p => Matches(q, p), p => Admits(c, p));
    var found := Seqs.SortDesc(Seqs.Filter(store, p => Matches(q, p)), CreatedAt);
    return Ok(200, Many(Views(found, users)));
  }

  /** Every listed problem satisfies every given criterion. */
  lemma ListingSound(store: seq<Problem>, c: Criteria, i: int)
    requires 0 <= i < |Listing(store, c)|
    ensures Admits(c, Listing(store, c)[i])
  {
    var filtered := Seqs.Filter(store, p => Admits(c, p));
    var r := Listing(store, c);
    assert r[i] in multiset(r);
    assert r[i] in multiset(filtered);
    var j :| 0 <= j < |filtered| && filtered[j] == r[i];
  }

  /**
   * The list is complete: a stored problem satisfying the criteria is listed as
   * many times as it is stored, and no other problem is listed.
   */
  lemma ListingComplete(store: seq<Problem>, c: Criteria, p: Problem)
    ensures Admits(c, p) ==> multiset(Listing(store, c))[p] == multiset(store)[p]
    ensures !Admits(c, p) ==> p !in Listing(store, c)
  {
    var filtered := Seqs.Filter(store, q => Admits(c, q));
    var r := Listing(store, c);
    if p in r {
      var i :| 0 <= i < |r| && r[i] == p;
      ListingSound(store, c, i);
    }
    if Admits(c, p) && p !in multiset(store) {
      assert multiset(filtered)[p] == 0;
    }
  }

  /** The list is newest first. */
  lemma ListingNewestFirst(store: seq<Problem>, c: Criteria, i: int, j: int)
    requires 0 <= i < j < |Listing(store, c)|
    ensures Listing(store, c)[i].createdAt >= Listing(store, c)[j].createdAt
  {
  }

  /** With no query, language or tag, the list is the whole store, newest first. */
  lemma EmptyCriteriaListsAll(store: seq<Problem>)
    ensures Listing(store, Criteria("", "", "")) == Seqs.SortDesc(store, CreatedAt)
  {
    Seqs.FilterAll(store, p => Admits(Criteria("", "", ""), p));
  }

  /** A language outside java, c, cpp and js matches nothing. */
  lemma UnknownLanguageListsNothing(store: seq<Problem>, c: Criteria)
    requires c.language != "" && LangOfKey(c.language).None?
    ensures Listing(store, c) == []
  {
    Seqs.FilterNone(store, p => Admits(c, p));
  }

  /** The request body fields POST reads; `None` is an absent field. */
  datatype PostBody = PostBody(title: Option<string>, description: Option<string>, codes: CodesInput, tags: Option<seq<string>>)

  /**
   * POST /api/problems. `body` is `None` when the request body is not JSON;
   * `newId` and `now` are the id and clock reading the insert uses. Returns the
   * reply and the store afterwards.
   */
  function Post(session: Option<Session>, body: Option<PostBody>, store: seq<Problem>, newId: string, now: int, db: Db)
    : (res: (Reply<Problem>, seq<Problem>))
    ensures res.0.status in {201, 400, 401, 500}
    ensures session.None? ==> res.0 == Fail(401, "Unauthorized")
    ensures session.Some? && body.Some? && !(Truthy(body.value.title) && Truthy(body.value.description))
            ==> res.0 == Fail(400, "Title and description are required")
    ensures session.Some? && body.Some? && Truthy(body.value.title) && Truthy(body.value.description)
            && db != ConnectFails && (session.value.user.None? || session.value.user.value.id == "")
            ==> res.0 == Fail(400, "User ID not found in session")
    ensures res.0.status == 201 <==>
      && session.Some? && body.Some? && db == Up
      && Truthy(body.value.title) && Truthy(body.value.description)
      && session.value.user.Some? && session.value.user.value.id != ""
      && Create(InputFor(body.value, session.value.user.value.id), newId, now).Success?
    ensures res.0.status != 201 ==> res.1 == store
    ensures res.0.status == 201 ==>
      && res.0.body.Payload?
      && res.1 == store + [res.0.body.value]
      && res.0.body.value.author == session.value.user.value.id
      && res.0.body.value.createdAt == now == res.0.body.value.updatedAt
      && WellFormed(res.0.body.value)
    ensures res.0.status == 201 ==>
      && res.0.body.value == Create(InputFor(body.value, session.value.user.value.id), newId, now).value
      && res.0.body.value.id == newId
      && res.0.body.value.title == Text.Trim(body.value.title.value)
      && res.0.body.value.description == Text.Trim(body.value.description.value)
      && res.0.body.value.tags == body.value.tags.GetOr([])
  {
    if session.None? then (Fail(401, "Unauthorized"), store)
    else if body.None? then (Fail(500, "Failed to create problem"), store)
    else if !Truthy(body.value.title) || !Truthy(body.value.description) then
      (Fail(400, "Title and description are required"), store)
    else if db == ConnectFails then (Fail(500, "Failed to create problem"), store)
    else if session.value.user.None? || session.value.user.value.id == "" then
      (Fail(400, "User ID not found in session"), store)
    else if db == QueryFails then (Fail(500, "Failed to create problem"), store)
    else
      assert db.Up?;
      match Create(InputFor(body.value, session.value.user.value.id), newId, now)
      case Failure(_) => (Fail(500, "Failed to create problem"), store)
      case Success(p) => (Ok(201, p), store + [p])
  }

  /** The document POST hands to `Problem.create`: the body fields and the session user as author. */
  function InputFor(body: PostBody, author: UserId): ProblemInput {
    ProblemInput(body.title, body.description, body.codes, body.tags, Some(author), None, None)
  }

  /**
   * A title or description that passes the handler's presence check but breaks
   * the schema's length bounds is rejected by `create`, and the reply is 500, not 400.
   */
  lemma SchemaViolationIs500(session: Session, body: PostBody, store: seq<Problem>, newId: string, now: int)
    requires session.user.Some? && IsObjectId(session.user.value.id)
    requires Truthy(body.title) && Truthy(body.description)
    requires |Text.Trim(body.title.value)| < TitleMinLength
    ensures Post(Some(session), Some(body), store, newId, now, Up).0 == Fail(500, "Failed to create problem")
    ensures Post(Some(session), Some(body), store, newId, now, Up).1 == store
  {
  }
}

=== FILE: profile_form.dfy ===
/**
 * The profile edit form: its schema with the two password refinements, the
 * body it sends, and how it resets itself after the server answers.
 */
module ProfileForm {
  import opened Wrappers
  import opened Http
  import UserCollection
  import UpdateProfileRoute

  datatype ProfileValues = ProfileValues(name: string, email: string, currentPassword: Option<string>,
                                         newPassword: Option<string>, confirmPassword: Option<string>)

  datatype Field = NameField | EmailField | CurrentPasswordField | ConfirmPasswordField

  datatype FieldError = FieldError(field: Field, message: string)

  const NameMin: nat := 2
  const AllOrNothingMessage: string := "All password fields must be filled to change password"
  const MismatchMessage: string := "Passwords don't match"

  /** The first refinement: either no password field is filled or all three are. */
  predicate AllOrNothing(v: ProfileValues) {
    var some := Truthy(v.currentPassword) || Truthy(v.newPassword) || Truthy(v.confirmPassword);
    var all := Truthy(v.currentPassword) && Truthy(v.newPassword) && Truthy(v.confirmPassword);
    some ==> all
  }

  /** The second refinement: a new password and its confirmation, when both given, agree. */
  predicate ConfirmMatches(v: ProfileValues) {
    Truthy(v.newPassword) && Truthy(v.confirmPassword) ==> v.newPassword.value == v.confirmPassword.value
  }

  /** `profileFormSchema`; `isEmail` stands for zod's email check. */
  function FormErrors(v: ProfileValues, isEmail: string -> bool): (errs: seq<FieldError>)
    ensures errs == [] <==> |v.name| >= NameMin && isEmail(v.email) && AllOrNothing(v) && ConfirmMatches(v)
    ensures FieldError(CurrentPasswordField, AllOrNothingMessage) in errs <==> !AllOrNothing(v)
    ensures FieldError(ConfirmPasswordField, MismatchMessage) in errs <==> !ConfirmMatches(v)
  {
    (if |v.name| < NameMin then [FieldError(NameField, "Name must be at least 2 characters.")] else [])
    + (if !isEmail(v.email) then [FieldError(EmailField, "Please enter a valid email.")] else [])
    + (if !AllOrNothing(v) then [FieldError(CurrentPasswordField, AllOrNothingMessage)] else [])
    + (if !ConfirmMatches(v) then [FieldError(ConfirmPasswordField, MismatchMessage)] else [])
  }

  /** Exactly one filled password field is refused; so are mismatching new and confirmed passwords. */
  lemma PartialPasswordRefused(v: ProfileValues, isEmail: string -> bool)
    requires Truthy(v.newPassword) && !Truthy(v.currentPassword)
    ensures FormErrors(v, isEmail) != []
  {
  }

  /** The request body: the values as they are (the handler ignores `confirmPassword`). */
  function Body(v: ProfileValues): (b: UpdateProfileRoute.ProfileBody)
    ensures b.name == Some(v.name) && b.email == Some(v.email)
    ensures b.currentPassword == v.currentPassword && b.newPassword == v.newPassword
  {
    UpdateProfileRoute.ProfileBody(Some(v.name), Some(v.email), v.currentPassword, v.newPassword)
  }

  /**
   * A form that passes its schema never sends a new password without the
   * current one, so the handler's silent skip of a lone new password cannot
   * be reached from this form: the password changes exactly when all three
   * fields were filled.
   */
  lemma AcceptedFormChangesPasswordOnlyWhenAllFilled(v: ProfileValues, isEmail: string -> bool)
    requires FormErrors(v, isEmail) == []
    ensures UpdateProfileRoute.ChangesPassword(Body(v)) <==>
      Truthy(v.currentPassword) && Truthy(v.newPassword) && Truthy(v.confirmPassword)
  {
  }

  datatype Toast = Toast(title: string, description: string)

  /**
   * The form's fields, the client session it was opened with, and the
   * session data it last asked next-auth's `update` to store (`None` until
   * it asks).
   */
  class ProfileEditor {
    var values: ProfileValues
    var sessionUser: Option<SessionUser>
    var requested: Option<SessionUser>

    /** Defaults: the session's name and email (or ''), and three empty password fields. */
    constructor (user: Option<SessionUser>)
      ensures sessionUser == user && requested == None
      ensures values.name == (if user.Some? && Truthy(user.value.name) then user.value.name.value else "")
      ensures values.email == (if user.Some? && Truthy(user.value.email) then user.value.email.value else "")
      ensures values.currentPassword == values.newPassword == values.confirmPassword == Some("")
    {
      sessionUser := user;
      requested := None;
      values := ProfileValues(
        if user.Some? && Truthy(user.value.name) then user.value.name.value else "",
        if user.Some? && Truthy(user.value.email) then user.value.email.value else "",
        Some(""), Some(""), Some(""));
    }

    /**
     * What `onSubmit` does with the answer. `json` is the parsed body's `user`
     * field, or the parser's message when the body cannot be read. A non-ok or unreadable
     * answer changes nothing and shows an error; otherwise, when a user came
     * back, `update` is asked to store the session with the returned name and
     * email, and the three password fields are emptied. The session itself is
     * left as it was: what next-auth serves after `update` is decided by the
     * `jwt` and `session` callbacks, which keep the sign-in name and email.
     */
    method OnAnswer(ok: bool, json: Result<Option<UserCollection.PublicUser>, string>) returns (toast: Toast)
      modifies this
      ensures sessionUser == old(sessionUser)
      ensures !ok || json.Failure? ==> values == old(values) && requested == old(requested)
      ensures !ok ==> toast == Toast("Error", "Failed to update profile")
      ensures ok && json.Failure? ==> toast == Toast("Error", json.error)
      ensures ok && json.Success? ==>
        && values == old(values).(currentPassword := Some(""), newPassword := Some(""), confirmPassword := Some(""))
        && toast == Toast("Profile updated", "Your profile has been updated successfully.")
      ensures ok && json.Success? && json.value.None? ==> requested == old(requested)
      ensures ok && json.Success? && json.value.Some? ==>
        && requested.Some?
        && requested.value.name == Some(json.value.value.name)
        && requested.value.email == Some(json.value.value.email)
        && (sessionUser.Some? ==>
              requested.value.id == sessionUser.value.id
              && requested.value.createdAt == sessionUser.value.createdAt)
    {
      if !ok {
        return Toast("Error", "Failed to update profile");
      }
      if json.Failure? {
        return Toast("Error", json.error);
      }
      if json.value.Some? {
        var u := json.value.value;
        var base := if sessionUser.Some? then sessionUser.value else SessionUser("", None, None, None);
        requested := Some(base.(name := Some(u.name), email := Some(u.email)));
      }
      values := values.(currentPassword := Some(""), newPassword := Some(""), confirmPassword := Some(""));
      toast := Toast("Profile updated", "Your profile has been updated successfully.");
    }
  }
}

=== FILE: seqs.dfy ===
/**
 * Sequence operations behind the listings: `Array.prototype.filter`, a stable
 * descending sort on an integer key (JavaScript's `sort` is stable; it also
 * stands for MongoDB's `.sort({ field: -1 })`, whose order among equal keys the
 * model fixes to store order), and `slice(0, n)` / `.limit(n)`.
 */
module Seqs {

  /** `a` can be obtained from `b` by deleting elements: an order-preserving selection. */
  predicate IsSubsequence<T(==)>(a: seq<T>, b: seq<T>)
    decreases |b|
  {
    a == [] || (b != [] && ((a[0] == b[0] && IsSubsequence(a[1..], b[1..])) || IsSubsequence(a, b[1..])))
  }

  /** `s.filter(f)`: keeps exactly the elements satisfying `f`, in their original order. */
  function Filter<T(==)>(s: seq<T>, f: T -> bool): (r: seq<T>)
    ensures |r| <= |s|
    ensures forall i :: 0 <= i < |r| ==> f(r[i])
    ensures multiset(r) <= multiset(s)
    ensures forall x :: x in multiset(s) && f(x) ==> multiset(r)[x] == multiset(s)[x]
  {
    if s == [] then []
    else
      assert s == [s[0]] + s[1..];
      if f(s[0]) then [s[0]] + Filter(s[1..], f)
      else Filter(s[1..], f)
  }

  /** The result of a filter is an order-preserving selection of its input. */
  lemma {:induction false} FilterSubsequence<T>(s: seq<T>, f: T -> bool)
    ensures IsSubsequence(Filter(s, f), s)
  {
    if s != [] {
      FilterSubsequence(s[1..], f);
      var t := Filter(s[1..], f);
      if f(s[0]) {
        assert ([s[0]] + t)[1..] == t;
      }
    }
  }

  /** An element occurs in a filter's result exactly when it occurs in the input and passes. */
  lemma FilterMembers<T>(s: seq<T>, f: T -> bool, x: T)
    ensures x in Filter(s, f) <==> x in s && f(x)
  {
    var r := Filter(s, f);
    if x in r {
      var i :| 0 <= i < |r| && r[i] == x;
      assert x in multiset(r);
    }
    if x in s && f(x) {
      assert x in multiset(s);
      assert x in multiset(r);
    }
  }

  /** Filters by pointwise-equal predicates agree. */
  lemma {:induction false} FilterExt<T>(s: seq<T>, f: T -> bool, g: T -> bool)
    requires forall x :: x in s ==> f(x) == g(x)
    ensures Filter(s, f) == Filter(s, g)
  {
    if s != [] {
      FilterExt(s[1..], f, g);
    }
  }

  /** A filter that every element passes keeps the whole sequence. */
  lemma {:induction false} FilterAll<T>(s: seq<T>, f: T -> bool)
    requires forall x :: x in s ==> f(x)
    ensures Filter(s, f) == s
  {
    if s != [] {
      FilterAll(s[1..], f);
    }
  }

  /** A filter that no element passes keeps nothing. */
  lemma {:induction false} FilterNone<T>(s: seq<T>, f: T -> bool)
    requires forall x :: x in s ==> !f(x)
    ensures Filter(s, f) == []
  {
    if s != [] {
      FilterNone(s[1..], f);
    }
  }

  predicate NoDuplicates<T(==)>(s: seq<T>) {
    forall i, j :: 0 <= i < j < |s| ==> s[i] != s[j]
  }

  predicate SortedDesc<T>(s: seq<T>, key: T -> int) {
    forall i, j :: 0 <= i < j < |s| ==> key(s[i]) >= key(s[j])
  }

  /** Places `x` before the first element whose key is not greater than its own. */
  function Insert<T>(x: T, s: seq<T>, key: T -> int): (r: seq<T>)
    requires SortedDesc(s, key)
    ensures |r| == |s| + 1
    ensures multiset(r) == multiset(s) + multiset{x}
    ensures SortedDesc(r, key)
  {
    if s == [] || key(s[0]) <= key(x) then [x] + s
    else
      var t := Insert(x, s[1..], key);
      InsertHeadBound(x, s, t, key);
      assert s == [s[0]] + s[1..];
      [s[0]] + t
  }

  lemma InsertHeadBound<T>(x: T, s: seq<T>, t: seq<T>, key: T -> int)
    requires s != [] && SortedDesc(s, key) && key(s[0]) > key(x)
    requires multiset(t) == multiset(s[1..]) + multiset{x}
    ensures forall j :: 0 <= j < |t| ==> key(s[0]) >= key(t[j])
  {
    forall j | 0 <= j < |t| ensures key(s[0]) >= key(t[j]) {
      assert t[j] in multiset(t);
      if t[j] != x {
        assert t[j] in multiset(s[1..]);
        var k :| 0 <= k < |s[1..]| && s[1..][k] == t[j];
        assert s[k + 1] == t[j];
      }
    }
  }

  /** Insertion sort, newest (largest key) first; equal keys keep their input order. */
  function SortDesc<T>(s: seq<T>, key: T -> int): (r: seq<T>)
    ensures |r| == |s|
    ensures multiset(r) == multiset(s)
    ensures SortedDesc(r, key)
  {
    if s == [] then []
    else
      assert s == [s[0]] + s[1..];
      Insert(s[0], SortDesc(s[1..], key), key)
  }

  /** `Insert` splits its input just before the first element not greater than `x`. */
  lemma {:induction false} InsertAt<T>(x: T, s: seq<T>, key: T -> int, k: nat)
    requires SortedDesc(s, key) && k <= |s|
    requires forall i :: 0 <= i < k ==> key(s[i]) > key(x)
    requires k == |s| || key(s[k]) <= key(x)
    ensures Insert(x, s, key) == s[..k] + [x] + s[k..]
  {
    if k == 0 {
      assert s[..0] + [x] + s[0..] == [x] + s;
    } else {
      SortedTail(s, key);
      BoundTail(x, s, key, k);
      InsertAt(x, s[1..], key, k - 1);
      InsertUnfold(x, s, key);
      SplitCons(s, x, k);
    }
  }

  lemma InsertUnfold<T>(x: T, s: seq<T>, key: T -> int)
    requires SortedDesc(s, key) && s != [] && key(s[0]) > key(x)
    requires SortedDesc(s[1..], key)
    ensures Insert(x, s, key) == [s[0]] + Insert(x, s[1..], key)
  {
  }

  lemma BoundTail<T>(x: T, s: seq<T>, key: T -> int, k: nat)
    requires 0 < k <= |s|
    requires forall i :: 0 <= i < k ==> key(s[i]) > key(x)
    ensures forall i :: 0 <= i < k - 1 ==> key(s[1..][i]) > key(x)
  {
    forall i | 0 <= i < k - 1 ensures key(s[1..][i]) > key(x) {
      assert s[1..][i] == s[i + 1];
    }
  }

  lemma SplitCons<T>(s: seq<T>, x: T, k: nat)
    requires 0 < k <= |s|
    ensures s[..k] + [x] + s[k..] == [s[0]] + (s[1..][..k - 1] + [x] + s[1..][k - 1..])
  {
    assert s[..k] == [s[0]] + s[1..][..k - 1];
    assert s[k..] == s[1..][k - 1..];
  }

  lemma SortedTail<T>(s: seq<T>, key: T -> int)
    requires s != [] && SortedDesc(s, key)
    ensures SortedDesc(s[1..], key)
  {
    forall i, j | 0 <= i < j < |s| - 1 ensures key(s[1..][i]) >= key(s[1..][j]) {
      assert s[1..][i] == s[i + 1] && s[1..][j] == s[j + 1];
    }
  }

  /**
   * `array.sort((a, b) => key(b) - key(a))`: an in-place stable sort, largest
   * key first, with the same outcome as `SortDesc`.
   */
  method SortInPlace<T>(a: array<T>, key: T -> int)
    modifies a
    ensures a[..] == SortDesc(old(a[..]), key)
  {
    ghost var s0 := a[..];
    var i := a.Length;
    assert s0[..i] + SortDesc(s0[i..], key) == s0 + [];
    while i > 0
      invariant 0 <= i <= a.Length
      invariant a[..] == s0[..i] + SortDesc(s0[i..], key)
    {
      i := i - 1;
      SortStep(s0, a[..], i, key);
      InsertStep(a, i, key);
    }
    assert s0[0..] == s0;
  }

  /** One outer step: inserting `s0[i]` into the sorted tail extends the sorted tail by one. */
  lemma SortStep<T>(s0: seq<T>, cur: seq<T>, i: nat, key: T -> int)
    requires i < |s0| && cur == s0[..i + 1] + SortDesc(s0[i + 1..], key)
    ensures SortedDesc(cur[i + 1..], key)
    ensures cur[..i] + Insert(cur[i], cur[i + 1..], key) == s0[..i] + SortDesc(s0[i..], key)
  {
    assert cur[..i] == s0[..i] && cur[i] == s0[i] && cur[i + 1..] == SortDesc(s0[i + 1..], key);
    assert s0[i..][1..] == s0[i + 1..];
  }

  /** Moves `a[i]` rightwards past the larger keys of the sorted part `a[i+1..]`. */
  method InsertStep<T>(a: array<T>, i: nat, key: T -> int)
    requires i < a.Length && SortedDesc(a[i + 1..], key)
    modifies a
    ensures a[..] == old(a[..i]) + Insert(old(a[i]), old(a[i + 1..]), key)
  {
    var x := a[i];
    var j := i;
    ghost var prefix := a[..i];
    ghost var sorted := a[i + 1..];
    assert Shifting(a[..], prefix, sorted, j, key, x);
    while j + 1 < a.Length && key(a[j + 1]) > key(x)
      invariant i <= j < a.Length
      invariant Shifting(a[..], prefix, sorted, j, key, x)
    {
      ShiftStep(a[..], prefix, sorted, j, key, x);
      a[j] := a[j + 1];
      j := j + 1;
    }
    ShiftEnd(a[..], prefix, sorted, j, key, x);
    a[j] := x;
  }

  /**
   * The state of the shifting loop: `s` is `prefix`, then the first `j - |prefix|`
   * elements of `sorted` (all with a larger key than `x`), a free slot at `j`,
   * then the rest of `sorted`.
   */
  ghost predicate Shifting<T>(s: seq<T>, prefix: seq<T>, sorted: seq<T>, j: nat, key: T -> int, x: T) {
    && |s| == |prefix| + |sorted| + 1
    && |prefix| <= j < |s|
    && s[..|prefix|] == prefix
    && s[|prefix|..j] == sorted[..j - |prefix|]
    && s[j + 1..] == sorted[j - |prefix|..]
    && forall m :: 0 <= m < j - |prefix| ==> key(sorted[m]) > key(x)
  }

  lemma ShiftStep<T>(s: seq<T>, prefix: seq<T>, sorted: seq<T>, j: nat, key: T -> int, x: T)
    requires Shifting(s, prefix, sorted, j, key, x)
    requires j + 1 < |s| && key(s[j + 1]) > key(x)
    ensures Shifting(s[j := s[j + 1]], prefix, sorted, j + 1, key, x)
  {
    var t := s[j := s[j + 1]];
    var k := j - |prefix|;
    assert s[j + 1] == sorted[k];
    assert t[..|prefix|] == s[..|prefix|];
    assert t[|prefix|..j + 1] == s[|prefix|..j] + [sorted[k]];
    assert sorted[..k + 1] == sorted[..k] + [sorted[k]];
    assert t[j + 2..] == s[j + 2..] == sorted[k + 1..];
  }

  lemma ShiftEnd<T>(s: seq<T>, prefix: seq<T>, sorted: seq<T>, j: nat, key: T -> int, x: T)
    requires Shifting(s, prefix, sorted, j, key, x) && SortedDesc(sorted, key)
    requires j + 1 == |s| || key(s[j + 1]) <= key(x)
    ensures s[j := x] == prefix + Insert(x, sorted, key)
  {
    var k := j - |prefix|;
    assert j + 1 < |s| ==> s[j + 1] == s[j + 1..][0] == sorted[k];
    InsertAt(x, sorted, key, k);
    FillSlot(s, prefix, sorted, j, x);
  }

  lemma FillSlot<T>(s: seq<T>, prefix: seq<T>, sorted: seq<T>, j: nat, x: T)
    requires |s| == |prefix| + |sorted| + 1 && |prefix| <= j < |s|
    requires s[..|prefix|] == prefix
    requires s[|prefix|..j] == sorted[..j - |prefix|]
    requires s[j + 1..] == sorted[j - |prefix|..]
    ensures s[j := x] == prefix + (sorted[..j - |prefix|] + [x] + sorted[j - |prefix|..])
  {
    var t := s[j := x];
    assert t[..|prefix|] == prefix;
    assert t[|prefix|..j] == sorted[..j - |prefix|];
    assert t[j + 1..] == sorted[j - |prefix|..];
    assert t == t[..|prefix|] + (t[|prefix|..j] + [x] + t[j + 1..]);
  }

  /** The elements of `s` whose key is `k`, in order. */
  function WithKey<T>(s: seq<T>, key: T -> int, k: int): seq<T> {
    if s == [] then []
    else if key(s[0]) == k then [s[0]] + WithKey(s[1..], key, k)
    else WithKey(s[1..], key, k)
  }

  lemma {:induction false} InsertWithKey<T>(x: T, s: seq<T>, key: T -> int, k: int)
    requires SortedDesc(s, key)
    ensures WithKey(Insert(x, s, key), key, k)
         == (if key(x) == k then [x] else []) + WithKey(s, key, k)
  {
    var r := Insert(x, s, key);
    if s == [] || key(s[0]) <= key(x) {
      assert r[0] == x && r[1..] == s;
    } else {
      var t := Insert(x, s[1..], key);
      assert r[0] == s[0] && r[1..] == t;
      InsertWithKey(x, s[1..], key, k);
    }
  }

  /** Stability: for every key, the elements carrying it appear in the sorted output in input order. */
  lemma {:induction false} SortStable<T>(s: seq<T>, key: T -> int, k: int)
    ensures WithKey(SortDesc(s, key), key, k) == WithKey(s, key, k)
  {
    if s != [] {
      SortStable(s[1..], key, k);
      InsertWithKey(s[0], SortDesc(s[1..], key), key, k);
    }
  }

  /** Sorting a sequence that is already in descending order changes nothing. */
  lemma {:induction false} SortSorted<T>(s: seq<T>, key: T -> int)
    requires SortedDesc(s, key)
    ensures SortDesc(s, key) == s
  {
    if s != [] {
      SortSorted(s[1..], key);
      assert SortDesc(s[1..], key) == s[1..];
      assert s[1..] == [] || key(s[1]) <= key(s[0]);
    }
  }

  function Min(a: int, b: int): int { if a <= b then a else b }

  /** `s.slice(0, n)` / `.limit(n)`: the first `n` elements, or all of them when fewer. */
  function Take<T>(s: seq<T>, n: nat): (r: seq<T>)
    ensures |r| == Min(n, |s|)
    ensures r == s[..|r|]
  {
    if |s| <= n then s else s[..n]
  }

  /**
   * Taking the first `n` of the newest-first order selects the `n` largest keys:
   * every selected element is at least as recent as every element left behind.
   */
  lemma TakeNewest<T>(s: seq<T>, key: T -> int, n: nat)
    ensures SortedDesc(Take(SortDesc(s, key), n), key)
    ensures multiset(Take(SortDesc(s, key), n)) <= multiset(s)
    ensures forall x, y :: x in Take(SortDesc(s, key), n) && y in multiset(s) - multiset(Take(SortDesc(s, key), n))
              ==> key(x) >= key(y)
  {
    var sorted := SortDesc(s, key);
    var t := Take(sorted, n);
    var u := sorted[|t|..];
    assert sorted == t + u;
    assert multiset(s) == multiset(t) + multiset(u);
    forall i, j | 0 <= i < j < |t| ensures key(t[i]) >= key(t[j]) {
      assert t[i] == sorted[i] && t[j] == sorted[j];
    }
    forall x, y | x in t && y in multiset(s) - multiset(t) ensures key(x) >= key(y) {
      assert y in multiset(u);
      assert y in u;
      PrefixBeatsSuffix(sorted, |t|, x, y, key);
    }
  }

  lemma PrefixBeatsSuffix<T>(s: seq<T>, m: nat, x: T, y: T, key: T -> int)
    requires SortedDesc(s, key) && m <= |s|
    requires x in s[..m] && y in s[m..]
    ensures key(x) >= key(y)
  {
    var i :| 0 <= i < m && s[..m][i] == x;
    var j :| 0 <= j < |s| - m && s[m..][j] == y;
    assert s[i] == x && s[m + j] == y;
  }
}

=== FILE: signin_page.dfy ===
/**
 * The sign-in page: its form schema, and how the page turns the answer of the
 * credentials sign-in call into a navigation or an error text.
 */
module SigninPage {
  import Text
  import opened Wrappers
  import AuthOptions

  const MinPasswordLength: nat := 6

  datatype SigninForm = SigninForm(email: string, password: string)

  datatype FieldError = InvalidEmail | ShortPassword

  /** The schema: a valid email (an oracle), and a password of at least 6 characters. */
  function FormErrors(f: SigninForm, isEmail: string -> bool): (errs: seq<FieldError>)
    ensures InvalidEmail in errs <==> !isEmail(f.email)
    ensures ShortPassword in errs <==> |f.password| < MinPasswordLength
    ensures errs == [] <==> isEmail(f.email) && |f.password| >= MinPasswordLength
  {
    (if isEmail(f.email) then [] else [InvalidEmail]) +
    (if |f.password| >= MinPasswordLength then [] else [ShortPassword])
  }

  /** How the sign-in call ended: it threw, resolved to nothing, or resolved with an optional error. */
  datatype SignInAnswer = Thrown | NoResult | Resolved(error: Option<string>)

  datatype Outcome = ToDashboard | ShowError(message: string)

  const CredentialsMessage: string := "Invalid email or password. Please try again."
  const ServerMessage: string := "Server connection error. Please try again later."
  const ConnectionMessage: string := "Connection error. Please try again later."

  predicate Reported(a: SignInAnswer) {
    a.Resolved? && a.error.Some? && a.error.value != ""
  }

  /** The page's reaction to the answer of `signIn('credentials', { redirect: false, ... })`. */
  function OnAnswer(a: SignInAnswer): (o: Outcome)
    ensures a.Thrown? ==> o == ShowError(ConnectionMessage)
    ensures o == ToDashboard <==> !a.Thrown? && !Reported(a)
    ensures Reported(a) && a.error.value == "CredentialsSignin" ==> o == ShowError(CredentialsMessage)
    ensures Reported(a) && a.error.value != "CredentialsSignin" ==>
      o == ShowError(
        if Text.Contains(a.error.value, "database") || Text.Contains(a.error.value, "connect")
        then ServerMessage else a.error.value)
  {
    if a.Thrown? then ShowError(ConnectionMessage)
    else if !Reported(a) then ToDashboard
    else
      var e := a.error.value;
      if e == "CredentialsSignin" then ShowError(CredentialsMessage)
      else if Text.Contains(e, "database") || Text.Contains(e, "connect") then ShowError(ServerMessage)
      else ShowError(e)
  }

  /**
   * The messages the `authorize` of the NextAuth handler at `/api/auth`
   * throws: for a missing field, and for an unknown email or a wrong password.
   */
  const MissingFieldsMessage: string := "Please enter email and password"
  const BadCredentialsMessage: string := "Invalid email or password"

  /**
   * A reported error that is not "CredentialsSignin" and in which no "da"
   * and no "co" occur (so neither "database" nor "connect") is shown as it is.
   */
  lemma ShownAsIs(m: string)
    requires m != "" && m != "CredentialsSignin"
    requires forall i :: 0 <= i < |m| - 1 ==> !(m[i] == 'd' && m[i + 1] == 'a') && !(m[i] == 'c' && m[i + 1] == 'o')
    ensures OnAnswer(Resolved(Some(m))) == ShowError(m)
  {
    forall i | 0 <= i <= |m| - |"database"| ensures !Text.StartsWith(m[i..], "database") {
      assert !(m[i] == 'd' && m[i + 1] == 'a');
    }
    forall i | 0 <= i <= |m| - |"connect"| ensures !Text.StartsWith(m[i..], "connect") {
      assert !(m[i] == 'c' && m[i + 1] == 'o');
    }
  }

  /**
   * The errors the served `authorize` throws reach the page as they are: a
   * missing field and bad credentials are each shown verbatim.
   */
  lemma ServedAuthorizeMessagesShownVerbatim()
    ensures OnAnswer(Resolved(Some(MissingFieldsMessage))) == ShowError(MissingFieldsMessage)
    ensures OnAnswer(Resolved(Some(BadCredentialsMessage))) == ShowError(BadCredentialsMessage)
  {
    ShownAsIs(MissingFieldsMessage);
    ShownAsIs(BadCredentialsMessage);
  }

  /**
   * The generic failure of `lib/auth-options`' `authorize` would also be
   * shown as it is, were that `authorize` the one serving the sign-in.
   */
  lemma AuthorizeFailureShownVerbatim()
    ensures OnAnswer(Resolved(Some(AuthOptions.GenericFailure))) == ShowError(AuthOptions.GenericFailure)
  {
    ShownAsIs(AuthOptions.GenericFailure);
  }

  /** Any error mentioning "database" (other than "CredentialsSignin") is shown as the server message. */
  lemma DatabaseErrorsMasked(pre: string, post: string)
    ensures OnAnswer(Resolved(Some(pre + "database" + post))) == ShowError(ServerMessage)
  {
    var e := pre + "database" + post;
    assert e[|pre|..][..|"database"|] == "database";
    assert Text.StartsWith(e[|pre|..], "database");
    assert Text.Contains(e, "database");
    assert e[|pre|] == 'd' && e[|pre| + 1] == 'a';
  }
}

=== FILE: signup_page.dfy ===
/**
 * The sign-up page: its form schema, the body it posts (which never carries
 * the confirmation field), and what it does with the answer.
 */
module SignupPage {
  import opened Wrappers
  import opened Http
  import SignupRoute
  import UserCollection

  datatype SignupForm = SignupForm(name: string, email: string, password: string, confirmPassword: string)

  datatype Field = NameField | EmailField | PasswordField | ConfirmField

  datatype FieldError = FieldError(field: Field, message: string)

  const NameMin: nat := 2
  const PasswordMin: nat := 6

  /**
   * `formSchema` with its refinement; `isEmail` stands for zod's email check.
   * Every field string is present, so the refinement is checked alongside the
   * field rules.
   */
  function FormErrors(f: SignupForm, isEmail: string -> bool): (errs: seq<FieldError>)
    ensures errs == [] <==>
      |f.name| >= NameMin && isEmail(f.email) && |f.password| >= PasswordMin && f.password == f.confirmPassword
    ensures FieldError(ConfirmField, "Passwords don't match") in errs <==> f.password != f.confirmPassword
    ensures forall e :: e in errs && e.field == ConfirmField ==> f.password != f.confirmPassword
  {
    (if |f.name| < NameMin then [FieldError(NameField, "Name must be at least 2 characters.")] else [])
    + (if !isEmail(f.email) then [FieldError(EmailField, "Please enter a valid email.")] else [])
    + (if |f.password| < PasswordMin then [FieldError(PasswordField, "Password must be at least 6 characters.")] else [])
    + (if f.password != f.confirmPassword then [FieldError(ConfirmField, "Passwords don't match")] else [])
  }

  /** The request body: name, email and password; the confirmation stays on the page. */
  function Body(f: SignupForm): (b: SignupRoute.SignupBody)
    ensures b.name == Some(f.name) && b.email == Some(f.email) && b.password == Some(f.password)
  {
    SignupRoute.SignupBody(Some(f.name), Some(f.email), Some(f.password))
  }

  /** The body depends on the confirmation field not at all. */
  lemma BodyIgnoresConfirmation(f: SignupForm, other: string)
    ensures Body(f) == Body(f.(confirmPassword := other))
  {
  }

  /**
   * A form the page accepts (with a non-empty email, which any valid address
   * is) passes the handler's presence and length checks: it is created exactly
   * when the database is reachable, the email is free and the insert succeeds.
   */
  lemma AcceptedFormPassesFieldChecks(f: SignupForm, isEmail: string -> bool, users: map<UserCollection.UserId, UserCollection.User>,
                                      newId: UserCollection.UserId, stored: string, db: Db, create: SignupRoute.CreateOutcome)
    requires FormErrors(f, isEmail) == [] && f.email != ""
    ensures SignupRoute.Decide(users, Some(Body(f)), newId, stored, db, create).0.status == 201 <==>
      db == Up && !UserCollection.EmailTaken(users, f.email) && create == SignupRoute.Inserted
  {
    assert f.name != [] by { assert |f.name| >= 2; }
    assert f.password != [] by { assert |f.password| >= 6; }
  }

  /** The answer as the page reads it: its status and the JSON body's `error`, or the parse failure message. */
  datatype Answer = Answer(ok: bool, json: Result<Option<string>, string>)

  datatype AfterSubmit = ToSignIn | ShowError(message: string)

  /**
   * `onSubmit` after the request: an ok answer goes to the sign-in page; a
   * failing one shows `data.error || 'Something went wrong'`; an unreadable
   * body shows the parser's message.
   */
  function OnAnswer(a: Answer): (next: AfterSubmit)
    ensures next == ToSignIn <==> a.ok && a.json.Success?
    ensures !a.ok && a.json.Success? ==>
      next == ShowError(if Truthy(a.json.value) then a.json.value.value else "Something went wrong")
    ensures next.ShowError? ==> next.message != "" || (a.json.Failure? && a.json.error == "")
  {
    match a.json
    case Failure(message) => ShowError(message)
    case Success(error) =>
      if a.ok then ToSignIn
      else ShowError(if Truthy(error) then error.value else "Something went wrong")
  }
}

=== FILE: signup_route.dfy ===
/**
 * `POST /api/auth/signup`: checks the three fields, refuses a registered
 * email, then inserts the account and answers with its id, name and email.
 */
module SignupRoute {
  import opened Wrappers
  import opened Http
  import opened UserCollection
  import Text

  /** The JSON body; `None` for a field that is missing. */
  datatype SignupBody = SignupBody(name: Option<string>, email: Option<string>, password: Option<string>)

  /**
   * What `User.create` does with a new account (the User schema is not part of
   * this model): inserts it, or throws a ValidationError with one message per
   * failing path, or throws some other error.
   */
  datatype CreateOutcome = Inserted | Invalid(messages: seq<string>) | Broken

  const MinPasswordLength: nat := 6

  /**
   * The reply, and the account to insert on success. `body` is `None` when the
   * request is not JSON; `db` says whether connecting or `findOne` fails;
   * `stored` is the password value the save hook stores.
   */
  function Decide(users: map<UserId, User>, body: Option<SignupBody>, newId: UserId, stored: string,
                  db: Db, create: CreateOutcome): (res: (Reply<PublicUser>, Option<User>))
    ensures res.0.status in {201, 400, 500}
    ensures res.1.Some? <==> res.0.status == 201
    ensures body.Some? && !(Truthy(body.value.name) && Truthy(body.value.email) && Truthy(body.value.password))
            ==> res.0 == Fail(400, "All fields are required")
    ensures body.Some? && Truthy(body.value.name) && Truthy(body.value.email) && Truthy(body.value.password)
            && |body.value.password.value| < MinPasswordLength
            ==> res.0 == Fail(400, "Password must be at least 6 characters long")
    ensures body.Some? && Truthy(body.value.name) && Truthy(body.value.email) && Truthy(body.value.password)
            && |body.value.password.value| >= MinPasswordLength && db == Up && EmailTaken(users, body.value.email.value)
            ==> res.0 == Fail(400, "Email already registered")
    ensures res.0.status == 201 <==>
      && body.Some? && Truthy(body.value.name) && Truthy(body.value.email) && Truthy(body.value.password)
      && |body.value.password.value| >= MinPasswordLength
      && db == Up && !EmailTaken(users, body.value.email.value) && create == Inserted
    ensures res.0.status == 201 ==>
      && res.0.body == Payload(PublicUser(newId, body.value.name.value, body.value.email.value))
      && res.1.value == User(newId, body.value.name.value, body.value.email.value, stored, None)
  {
    if body.None? then (Fail(500, "Failed to create user"), None)
    else
      var b := body.value;
      if !Truthy(b.name) || !Truthy(b.email) || !Truthy(b.password) then (Fail(400, "All fields are required"), None)
      else if |b.password.value| < MinPasswordLength then
        (Fail(400, "Password must be at least 6 characters long"), None)
      else if db != Up then (Fail(500, "Failed to create user"), None)
      else if EmailTaken(users, b.email.value) then (Fail(400, "Email already registered"), None)
      else match create
        case Invalid(messages) => (Fail(400, Text.Join(messages, ", ")), None)
        case Broken => (Fail(500, "Failed to create user"), None)
        case Inserted =>
          (Ok(201, PublicUser(newId, b.name.value, b.email.value)), Some(User(newId, b.name.value, b.email.value, stored, None)))
  }

  /** A rejected schema validation answers 400 with its messages joined by ", ". */
  lemma ValidationMessagesJoined(users: map<UserId, User>, b: SignupBody, newId: UserId, stored: string, messages: seq<string>)
    requires Truthy(b.name) && Truthy(b.email) && Truthy(b.password) && |b.password.value| >= MinPasswordLength
    requires !EmailTaken(users, b.email.value)
    ensures Decide(users, Some(b), newId, stored, Up, Invalid(messages)).0 == Fail(400, Text.Join(messages, ", "))
  {
  }

  /** The handler against the user store: it inserts only on success, and emails stay unique. */
  method Signup(store: UserStore, body: Option<SignupBody>, newId: UserId, stored: string, db: Db, create: CreateOutcome)
    returns (reply: Reply<PublicUser>)
    requires store.Valid() && newId !in store.users
    modifies store
    ensures store.Valid()
    ensures reply == Decide(old(store.users), body, newId, stored, db, create).0
    ensures reply.status == 201 ==> store.users == old(store.users)[newId := Decide(old(store.users), body, newId, stored, db, create).1.value]
    ensures reply.status != 201 ==> store.users == old(store.users)
  {
    var res := Decide(store.users, body, newId, stored, db, create);
    reply := res.0;
    if res.1.Some? {
      InsertKeepsEmailsUnique(store.users, res.1.value);
      store.users := store.users[newId := res.1.value];
    }
  }

  /** Adding an account whose id is new and whose email is not taken keeps emails unique. */
  lemma InsertKeepsEmailsUnique(users: map<UserId, User>, u: User)
    requires EmailsUnique(users) && KeyedById(users)
    requires u.id !in users && !EmailTaken(users, u.email)
    ensures EmailsUnique(users[u.id := u]) && KeyedById(users[u.id := u])
  {
  }
}

=== FILE: text.dfy ===
/**
 * String helpers shared by the model: JavaScript's `trim`, `toLowerCase`,
 * `toUpperCase`, `startsWith`, `includes` and `Array.prototype.join`.
 * Case mapping is ASCII-only.
 */
module Text {

  /** The white-space and line-terminator characters `String.prototype.trim` removes. */
  predicate IsSpace(c: char) {
    c == ' ' || c == '\t' || c == '\n' || c == '\r' || c == '\U{0B}' || c == '\U{0C}'
    || c == '\U{A0}' || c == '\U{1680}' || ('\U{2000}' <= c <= '\U{200A}')
    || c == '\U{2028}' || c == '\U{2029}' || c == '\U{202F}' || c == '\U{205F}'
    || c == '\U{3000}' || c == '\U{FEFF}'
  }

  /** Drops leading white space: the result is the longest suffix that does not start with it. */
  function TrimStart(s: string): (r: string)
    ensures |r| <= |s|
    ensures forall i :: 0 <= i < |s| - |r| ==> IsSpace(s[i])
    ensures r != [] ==> !IsSpace(r[0])
  {
    if s != [] && IsSpace(s[0]) then TrimStart(s[1..]) else s
  }

  /** Drops trailing white space: the result is the longest prefix that does not end with it. */
  function TrimEnd(s: string): (r: string)
    ensures |r| <= |s|
    ensures forall i :: |r| <= i < |s| ==> IsSpace(s[i])
    ensures r != [] ==> !IsSpace(r[|r| - 1])
  {
    if s != [] && IsSpace(s[|s| - 1]) then TrimEnd(s[..|s| - 1]) else s
  }

  /** No white space at either end. */
  predicate Trimmed(s: string) {
    s == [] || (!IsSpace(s[0]) && !IsSpace(s[|s| - 1]))
  }

  /** What TrimStart keeps is a suffix of its input. */
  lemma {:induction false} TrimStartSuffix(s: string)
    ensures TrimStart(s) == s[|s| - |TrimStart(s)|..]
  {
    if s != [] && IsSpace(s[0]) {
      TrimStartSuffix(s[1..]);
    }
  }

  /** What TrimEnd keeps is a prefix of its input. */
  lemma {:induction false} TrimEndPrefix(s: string)
    ensures TrimEnd(s) == s[..|TrimEnd(s)|]
  {
    if s != [] && IsSpace(s[|s| - 1]) {
      TrimEndPrefix(s[..|s| - 1]);
    }
  }

  /** Leading white space before a non-space character is exactly what TrimStart drops. */
  lemma {:induction false} TrimStartDropsPad(pad: string, s: string)
    requires forall i :: 0 <= i < |pad| ==> IsSpace(pad[i])
    requires s != [] && !IsSpace(s[0])
    ensures TrimStart(pad + s) == s
  {
    if pad != [] {
      assert (pad + s)[1..] == pad[1..] + s;
      TrimStartDropsPad(pad[1..], s);
    }
  }

  /** TrimEnd keeps a prefix that does not end with white space. */
  lemma TrimEndKeepsPrefix(s: string, prefix: string)
    requires StartsWith(s, prefix) && prefix != [] && !IsSpace(prefix[|prefix| - 1])
    ensures StartsWith(TrimEnd(s), prefix)
  {
    TrimEndPrefix(s);
    assert s[|prefix| - 1] == prefix[|prefix| - 1];
  }

  /** `s.trim()`: white space removed at both ends. */
  function Trim(s: string): (r: string)
    ensures |r| <= |s|
    ensures Trimmed(r)
    ensures (forall i :: 0 <= i < |s| ==> IsSpace(s[i])) <==> r == []
  {
    AllSpaceIffEmpty(s);
    TrimEndPrefix(TrimStart(s));
    TrimEnd(TrimStart(s))
  }

  lemma AllSpaceIffEmpty(s: string)
    ensures (forall i :: 0 <= i < |s| ==> IsSpace(s[i])) <==> TrimEnd(TrimStart(s)) == []
  {
    var a := TrimStart(s);
    var r := TrimEnd(a);
    if a != [] {
      TrimEndKeepsHead(a);
      TrimStartSuffix(s);
      assert !IsSpace(s[|s| - |a|]);
    }
  }

  /** A string whose first character is not white space keeps that character under TrimEnd. */
  lemma TrimEndKeepsHead(a: string)
    requires a != [] && !IsSpace(a[0])
    ensures TrimEnd(a) != []
  {
  }

  /** Trimming a string without white space at its ends changes nothing. */
  lemma TrimmedFixed(s: string)
    requires Trimmed(s)
    ensures Trim(s) == s
  {
    assert TrimStart(s) == s;
    assert TrimEnd(s) == s;
  }

  function LowerChar(c: char): (r: char)
    ensures 'A' <= c <= 'Z' ==> 'a' <= r <= 'z'
    ensures !('A' <= c <= 'Z') ==> r == c
  {
    if 'A' <= c <= 'Z' then (c as int + 32) as char else c
  }

  function UpperChar(c: char): (r: char)
    ensures 'a' <= c <= 'z' ==> 'A' <= r <= 'Z'
    ensures !('a' <= c <= 'z') ==> r == c
  {
    if 'a' <= c <= 'z' then (c as int - 32) as char else c
  }

  /** `s.toLowerCase()` restricted to ASCII letters. */
  function ToLower(s: string): (r: string)
    ensures |r| == |s|
    ensures forall i :: 0 <= i < |s| ==> r[i] == LowerChar(s[i])
    ensures forall i :: 0 <= i < |r| ==> !('A' <= r[i] <= 'Z')
  {
    seq(|s|, i requires 0 <= i < |s| => LowerChar(s[i]))
  }

  predicate StartsWith(s: string, prefix: string) {
    |prefix| <= |s| && s[..|prefix|] == prefix
  }

  /** `s.includes(sub)`: `sub` occurs in `s` at some position. */
  predicate Contains(s: string, sub: string) {
    exists i :: 0 <= i <= |s| - |sub| && StartsWith(s[i..], sub)
  }

  /** Every string contains the empty string, and every string contains itself. */
  lemma ContainsTrivial(s: string)
    ensures Contains(s, "")
    ensures Contains(s, s)
  {
    assert StartsWith(s[0..], "");
    assert StartsWith(s[0..], s);
  }

  /** `parts.join(sep)`. */
  function Join(parts: seq<string>, sep: string): (r: string)
    ensures parts == [] ==> r == ""
    ensures |parts| == 1 ==> r == parts[0]
    ensures |parts| > 0 ==> StartsWith(r, parts[0])
  {
    if parts == [] then ""
    else if |parts| == 1 then parts[0]
    else parts[0] + sep + Join(parts[1..], sep)
  }
}

=== FILE: update_profile_route.dfy ===
/**
 * `PUT /api/user/update-profile`: changes the signed-in user's name, email
 * and password field by field, then saves the document once; every early
 * return leaves the stored document as it was.
 */
module UpdateProfileRoute {
  import opened Wrappers
  import opened Http
  import opened UserCollection
  import ProblemModel

  /** The JSON body; `None` for a missing field. */
  datatype ProfileBody = ProfileBody(name: Option<string>, email: Option<string>,
                                     currentPassword: Option<string>, newPassword: Option<string>)

  /** The password is changed only when both password fields are given. */
  predicate ChangesPassword(b: ProfileBody) {
    Truthy(b.currentPassword) && Truthy(b.newPassword)
  }

  /** The email is changed only to a given address different from the current one. */
  predicate ChangesEmail(u: User, b: ProfileBody) {
    Truthy(b.email) && b.email.value != u.email
  }

  /** The document after all three field rules; `newHash` is the hash of the new password. */
  function Updated(u: User, b: ProfileBody, newHash: string): (v: User)
    ensures v.id == u.id && v.createdAt == u.createdAt
    ensures v.name == if Truthy(b.name) then b.name.value else u.name
    ensures v.email == if ChangesEmail(u, b) then b.email.value else u.email
    ensures v.password == if ChangesPassword(b) then newHash else u.password
  {
    u.(name := if Truthy(b.name) then b.name.value else u.name)
     .(email := if ChangesEmail(u, b) then b.email.value else u.email)
     .(password := if ChangesPassword(b) then newHash else u.password)
  }

  /**
   * The reply and the user collection afterwards. `matches` stands for
   * `bcrypt.compare`; `db` says whether connecting or a lookup fails; `saveOk`
   * whether `save` succeeds. A session id that is not an ObjectId makes
   * `findById` throw.
   */
  function Outcome(users: map<UserId, User>, session: Option<Session>, body: Option<ProfileBody>,
                   matches: (string, string) -> bool, newHash: string, db: Db, saveOk: bool)
    : (res: (Reply<PublicUser>, map<UserId, User>))
    ensures res.0.status in {200, 400, 401, 404, 500}
    ensures res.0.status == 401 <==> session.None? || session.value.user.None?
    ensures res.0.status != 200 ==> res.1 == users
    ensures res.0.status == 200 <==>
      && session.Some? && session.value.user.Some? && body.Some? && db == Up
      && var id := session.value.user.value.id;
      && ProblemModel.IsObjectId(id) && id in users
      && !(ChangesEmail(users[id], body.value) && EmailTaken(users, body.value.email.value))
      && (ChangesPassword(body.value) ==> matches(body.value.currentPassword.value, users[id].password))
      && saveOk
    ensures res.0.status == 200 ==>
      && session.Some? && session.value.user.Some? && body.Some?
      && var id := session.value.user.value.id;
      && id in users
      && res.1 == users[id := Updated(users[id], body.value, newHash)]
      && res.0.body == Payload(Public(Updated(users[id], body.value, newHash)))
  {
    if session.None? || session.value.user.None? then (Fail(401, "Unauthorized"), users)
    else if body.None? || db == ConnectFails then (Fail(500, "Failed to update profile"), users)
    else
      var id := session.value.user.value.id;
      var b := body.value;
      if db == QueryFails || !ProblemModel.IsObjectId(id) then (Fail(500, "Failed to update profile"), users)
      else if id !in users then (Fail(404, "User not found"), users)
      else
        var u := users[id];
        if ChangesEmail(u, b) && EmailTaken(users, b.email.value) then (Fail(400, "Email already in use"), users)
        else if ChangesPassword(b) && !matches(b.currentPassword.value, u.password) then
          (Fail(400, "Current password is incorrect"), users)
        else if !saveOk then (Fail(500, "Failed to update profile"), users)
        else
          assert db == Up && ProblemModel.IsObjectId(id) && u == users[id];
          var v := Updated(u, b, newHash);
          (Ok(200, Public(v)), users[id := v])
  }

  /** The handler: the document is copied, changed rule by rule, and stored only at `save`. */
  method UpdateProfile(store: UserStore, session: Option<Session>, body: Option<ProfileBody>,
                       matches: (string, string) -> bool, newHash: string, db: Db, saveOk: bool)
    returns (reply: Reply<PublicUser>)
    requires store.Valid()
    modifies store
    ensures store.Valid()
    ensures (reply, store.users) == Outcome(old(store.users), session, body, matches, newHash, db, saveOk)
  {
    if session.None? || session.value.user.None? {
      return Fail(401, "Unauthorized");
    }
    if body.None? || db == ConnectFails {
      return Fail(500, "Failed to update profile");
    }
    var b := body.value;
    var id := session.value.user.value.id;
    if db == QueryFails || !ProblemModel.IsObjectId(id) {
      return Fail(500, "Failed to update profile");
    }
    if id !in store.users {
      return Fail(404, "User not found");
    }
    var user := store.users[id];
    ghost var original := user;
    if Truthy(b.name) {
      user := user.(name := b.name.value);
    }
    if Truthy(b.email) && b.email.value != user.email {
      if EmailTaken(store.users, b.email.value) {
        return Fail(400, "Email already in use");
      }
      user := user.(email := b.email.value);
    }
    if Truthy(b.currentPassword) && Truthy(b.newPassword) {
      if !matches(b.currentPassword.value, user.password) {
        return Fail(400, "Current password is incorrect");
      }
      user := user.(password := newHash);
    }
    if !saveOk {
      return Fail(500, "Failed to update profile");
    }
    assert user == Updated(original, b, newHash);
    UpdateKeepsEmailsUnique(store.users, id, b, newHash);
    store.users := store.users[id := user];
    reply := Ok(200, Public(user));
  }

  /**
   * Saving the updated document keeps every email unique: an email is only
   * changed to one no account holds.
   */
  lemma UpdateKeepsEmailsUnique(users: map<UserId, User>, id: UserId, b: ProfileBody, newHash: string)
    requires EmailsUnique(users) && KeyedById(users) && id in users
    requires ChangesEmail(users[id], b) ==> !EmailTaken(users, b.email.value)
    ensures EmailsUnique(users[id := Updated(users[id], b, newHash)])
    ensures KeyedById(users[id := Updated(users[id], b, newHash)])
  {
    var v := Updated(users[id], b, newHash);
    if ChangesEmail(users[id], b) {
      assert forall y :: y in users ==> users[y].email != v.email;
    }
  }

  /** Only the signed-in user's document changes, and only on a 200. */
  lemma OthersUntouched(users: map<UserId, User>, session: Option<Session>, body: Option<ProfileBody>,
                        matches: (string, string) -> bool, newHash: string, db: Db, saveOk: bool, other: UserId)
    requires other in users
    requires session.None? || session.value.user.None? || other != session.value.user.value.id
    ensures var after := Outcome(users, session, body, matches, newHash, db, saveOk).1;
      other in after && after[other] == users[other] && after.Keys == users.Keys
  {
  }

  /**
   * A new password without the current one is ignored; so is a current
   * password without a new one.
   */
  lemma PasswordNeedsBothFields(u: User, b: ProfileBody, newHash: string)
    requires !Truthy(b.currentPassword) || !Truthy(b.newPassword)
    ensures Updated(u, b, newHash).password == u.password
  {
  }

  /** A well-formed session id that no account has gives 404, and nothing is saved. */
  lemma UnknownUserIs404(users: map<UserId, User>, s: Session, body: Option<ProfileBody>,
                         matches: (string, string) -> bool, newHash: string, saveOk: bool)
    requires s.user.Some? && body.Some? && ProblemModel.IsObjectId(s.user.value.id) && s.user.value.id !in users
    ensures Outcome(users, Some(s), body, matches, newHash, Up, saveOk) == (Fail(404, "User not found"), users)
  {
  }

  /**
   * A password change whose current password does not match the stored hash
   * gives 400, and nothing is saved: neither the new name nor the new email.
   */
  lemma WrongPasswordSavesNothing(users: map<UserId, User>, s: Session, b: ProfileBody,
                                  matches: (string, string) -> bool, newHash: string, saveOk: bool)
    requires s.user.Some? && ProblemModel.IsObjectId(s.user.value.id) && s.user.value.id in users
    requires !(ChangesEmail(users[s.user.value.id], b) && EmailTaken(users, b.email.value))
    requires ChangesPassword(b) && !matches(b.currentPassword.value, users[s.user.value.id].password)
    ensures Outcome(users, Some(s), Some(b), matches, newHash, Up, saveOk) == (Fail(400, "Current password is incorrect"), users)
  {
  }

  /**
   * An email already held by another account stops the request with 400,
   * even when a new name was also given: the name is not saved either.
   */
  lemma TakenEmailSavesNothing(users: map<UserId, User>, s: Session, b: ProfileBody,
                               matches: (string, string) -> bool, newHash: string, saveOk: bool)
    requires s.user.Some? && ProblemModel.IsObjectId(s.user.value.id) && s.user.value.id in users
    requires ChangesEmail(users[s.user.value.id], b) && EmailTaken(users, b.email.value)
    ensures Outcome(users, Some(s), Some(b), matches, newHash, Up, saveOk) == (Fail(400, "Email already in use"), users)
  {
  }
}

=== FILE: user_collection.dfy ===
/**
 * The user collection, as the route handlers see it: documents keyed by id.
 * The User schema and its pre-save password hashing are not part of this model;
 * `password` holds whatever the store keeps for the account.
 */
module UserCollection {
  import opened Wrappers

  type UserId = string

  datatype User = User(id: UserId, name: string, email: string, password: string, createdAt: Option<int>)

  /** The account as the handlers return it: id, name and email, never the password. */
  datatype PublicUser = PublicUser(id: UserId, name: string, email: string)

  function Public(u: User): (p: PublicUser)
    ensures p.id == u.id && p.name == u.name && p.email == u.email
  {
    PublicUser(u.id, u.name, u.email)
  }

  /** No two accounts share an email address. */
  ghost predicate EmailsUnique(users: map<UserId, User>) {
    forall a, b :: a in users && b in users && users[a].email == users[b].email ==> a == b
  }

  /** Every document is stored under its own id. */
  ghost predicate KeyedById(users: map<UserId, User>) {
    forall a :: a in users ==> users[a].id == a
  }

  /** `User.findOne({ email })` finds a document. */
  predicate EmailTaken(users: map<UserId, User>, email: string) {
    exists id :: id in users && users[id].email == email
  }

  class UserStore {
    var users: map<UserId, User>

    ghost predicate Valid()
      reads this
    {
      EmailsUnique(users) && KeyedById(users)
    }

    constructor (initial: map<UserId, User>)
      requires EmailsUnique(initial) && KeyedById(initial)
      ensures Valid() && users == initial
    {
      users := initial;
    }
  }
}

=== FILE: user_problems_route.dfy ===
/**
 * `GET /api/user/problems`: the signed-in user's own problems, newest first,
 * with an empty list when the lookup itself fails.
 */
module UserProblemsRoute {
  import opened ProblemModel
  import opened Populate
  import opened Http
  import opened Wrappers
  import Seqs
  import UserCollection

  /** `Problem.find({ author }).sort({ createdAt: -1 })` over the store. */
  function Mine(store: seq<Problem>, author: UserId): seq<Problem> {
    Seqs.SortDesc(Seqs.Filter(store, (p: Problem) => p.author == author), CreatedAt)
  }

  /**
   * The list the inner `try` leaves in `userProblems`: the user's problems, or
   * `[]` when the query fails, including when the session id does not cast to
   * an ObjectId.
   */
  function UserProblems(store: seq<Problem>, author: UserId, db: Db): (r: seq<Problem>)
    requires db != ConnectFails
    ensures db == QueryFails || !IsObjectId(author) ==> r == []
    ensures db == Up && IsObjectId(author) ==> r == Mine(store, author)
  {
    if db == QueryFails || !IsObjectId(author) then [] else Mine(store, author)
  }

  /** The handler: 401 without a signed-in user, 500 when the connection fails, otherwise 200. */
  function Get(session: Option<Session>, store: seq<Problem>, users: map<UserId, UserCollection.User>, db: Db)
    : (reply: Reply<seq<ProblemView>>)
    ensures reply.status in {200, 401, 500}
    ensures reply.status == 401 <==> session.None? || session.value.user.None?
    ensures reply.status == 500 <==> session.Some? && session.value.user.Some? && db == ConnectFails
    ensures reply.status == 200 ==>
      reply.body == Payload(Views(UserProblems(store, session.value.user.value.id, db), users))
    ensures reply.status == 200 && db == QueryFails ==> reply.body == Payload([])
  {
    if session.None? || session.value.user.None? then Fail(401, "Unauthorized")
    else if db == ConnectFails then Fail(500, "Internal server error")
    else Ok(200, Views(UserProblems(store, session.value.user.value.id, db), users))
  }

  /** Every listed problem belongs to the user, and the list is newest first. */
  lemma MineOwnedAndNewestFirst(store: seq<Problem>, author: UserId)
    ensures forall i :: 0 <= i < |Mine(store, author)| ==> Mine(store, author)[i].author == author
    ensures Seqs.SortedDesc(Mine(store, author), CreatedAt)
  {
    var filtered := Seqs.Filter(store, (p: Problem) => p.author == author);
    var r := Mine(store, author);
    forall i | 0 <= i < |r| ensures r[i].author == author {
      assert r[i] in multiset(r);
      assert r[i] in multiset(filtered);
    }
  }

  /** Every problem of the user is listed, as many times as it is stored. */
  lemma MineComplete(store: seq<Problem>, author: UserId, p: Problem)
    requires p.author == author
    ensures multiset(Mine(store, author))[p] == multiset(store)[p]
  {
    var filtered := Seqs.Filter(store, (q: Problem) => q.author == author);
    if p !in multiset(store) {
      assert multiset(filtered)[p] == 0;
    }
  }
}

=== FILE: wrappers.dfy ===
/** Option and Result values used for absent fields and for error paths. */
module Wrappers {

  datatype Option<+T> = None | Some(value: T) {
    function GetOr(default: T): T {
      match this
      case Some(v) => v
      case None => default
    }
  }

  datatype Result<+R, +E> = Success(value: R) | Failure(error: E)
}
